=== FILE: README.md ===
# FixFusion core, modelled in Dafny

FixFusion is a repair marketplace. Customers post repair requests ("issues"), technicians bid on them, the customer accepts a bid, and the two sides chat in real time. The chat can share locations. This project models the core of that system as pure Dafny functions over immutable data. It proves what the code promises about them:

- **Chat** (the Express and Socket.IO server, plus the React Native chat screen):
  - the shared room resolver `[a, b].sort().join('-')`;
  - the `messages` table and its history, location-history, mark-read and unread-count queries (the last sits behind a route that is never reached, see below);
  - the socket server's `joinRoom`, `leaveRoom`, `sendMessage` and `typing` handlers over a room map;
  - the chat screen's optimistic send, its duplicate check on `receiveMessage`, its typing indicator and its history load;
  - an end-to-end scenario tying the two sides together.
- **Bids** (the customer's `ViewBids` screen):
  - merging the fetched bids with a technician ranking;
  - finding the accepted bid;
  - the four-way button choice.
- **Technician profiles**:
  - `postProfile`'s validation and skills normalisation;
  - the upsert, and the profile read-back with its rating aggregate.
- **Authentication**: `signup` with a six-digit one-time password, `verifyOTP` and `login`.
- **Repair requests**:
  - posting and listing them, including the route table that shadows `/issues/all`;
  - the owner-scoped delete and update.
- **Technician dashboard**:
  - filtering the fetched requests;
  - collecting the technician's own bids and the "already bid" check;
  - the bid form's checks;
  - the image URL;
  - the tab selector.

## How JavaScript and SQL are modelled

- Strings are `seq<char>`. An empty string stands for a missing text field.
- JavaScript truthiness:
  - a number is truthy when it is present and non-zero (`TruthyInt` on an `Option<int>`);
  - a string is truthy when it is non-empty.
- Default array sort compares the string forms of values, so it is modelled by `Text.LexLe` on the decimal forms of ids.
- `trim`, `split`, `String.replace` (first occurrence only) and `parseInt` without a radix are written out in `Text`. `parseInt` skips leading blanks and takes an optional sign. A `0x` or `0X` after the sign switches to hexadecimal. It then reads the longest run of digits in the radix, and gives `NaN` (`None`) when that run is empty.
- SQL tables are sequences of rows in insertion order. `ORDER BY` is `Ordering.SortBy`, an insertion sort on an integer key. `LIMIT` is `Common.Take`.
- Whatever the code obtains from outside becomes a parameter:
  - the clock: `now`;
  - `Math.random`: `draw`;
  - bcrypt: `hashed`, `passwordMatches`;
  - the mailer: `mailOk`;
  - database failures: `dbOk`;
  - HTTP answers: `Option` values;
  - the ranking service's answer: an `Option` list.

The model follows the code, including these behaviours a reader might not expect:

- The server's location check is truthiness only, so a latitude or longitude of exactly 0 is refused (`Channel.BadLocation`).
- A `location` message sent without `locationData` is stored through the text branch, keeping the type `"location"` with no data (`Channel.LocationWithoutData`).
- The chat screen's fallback duplicate test applies to every held message, not only to optimistic copies without an id. A genuinely new message from the same sender within one second of a held one is therefore dropped (`ChatClient.NewMessageWithinWindowDropped`).
- `GET /issues/all` is declared after `GET /issues/:user_id`, so it never reaches `getAllIssues`. It is answered by the per-user handler's `'all'` case (`Issues.AllRouteShadowed`).
- `GET /api/messages/unread/:userId` is declared after `GET /api/messages/:userId/:technicianId`. Every path it matches is matched first by the history route, so the unread-count handler never runs (`MessageStore.UnreadCountShadowed`). A request for `/api/messages/unread/7` reaches the history handler with `userId` equal to `"unread"`. The `UnreadCount` lemmas below describe the count query that handler would run.

## Model

| member | source | states |
|---|---|---|
| Common.Filter | MyNewApp/src/screens/TechnicianDashboard.js:54-56 | `Array.filter`: the result keeps exactly the elements that satisfy the predicate and is a sub-multiset of the input |
| Common.FilterIsSubsequence | MyNewApp/src/screens/ViewBids.js:124-126 | filtering keeps the survivors in their original order |
| Common.Count | Backend/server.js:154-160 | `COUNT(*)` with a `WHERE`: the number of rows the filter keeps, zero exactly when no row qualifies |
| Common.Take | Backend/server.js:99 | `LIMIT n`: the first `min(n, length)` rows |
| Text.Trim | MyNewApp/src/screens/TechnicianDashboard.js:213 | `trim()`: a contiguous slice of the input with no white space at either end, only white space before and after it, empty exactly when the input is all white space |
| Text.TrimIdempotent | MyNewApp/src/screens/TechnicianDashboard.js:231-232 | trimming a trimmed string changes nothing |
| Text.Split | Backend/controllers/technicianController.js:21 | `split(',')`: at least one piece, no piece contains the separator |
| Text.JoinSplit | Backend/controllers/technicianController.js:21 | joining the pieces of a split with the separator gives back the input |
| Text.SplitJoin | Backend/controllers/technicianController.js:21 | splitting a join of separator-free pieces gives back the pieces |
| Text.IndexOfFrom | MyNewApp/src/screens/TechnicianDashboard.js:277 | the first match at or after a position, or none anywhere after it |
| Text.ReplaceFirst | MyNewApp/src/screens/TechnicianDashboard.js:277 | `String.replace` with a string pattern: only the first occurrence is replaced; no occurrence leaves the input as is |
| Text.LexLeTotal | Backend/server.js:221 | the default sort's string comparison orders any two strings |
| Text.LexLeAntisymmetric | Backend/server.js:221 | two strings each at most the other are equal |
| Text.NatToDecimal | MyNewApp/src/screens/ChatScreen.js:163-165 | the string form of a number: non-empty, all digits |
| Text.DecimalValue | MyNewApp/src/screens/ChatScreen.js:163-165 | the digits of a number's string form evaluate back to the number |
| Text.RadixPrefix | Backend/models/customerModel.js:26 | the longest run of leading digits of a radix, stopped by the first character that is not one |
| Text.ParseInt | Backend/models/customerModel.js:26 | `parseInt(s)`: `NaN` exactly when no digit of the radix follows the blanks, sign and `0x` prefix; otherwise the signed value of the longest run of such digits, in radix 16 after `0x` or `0X` and 10 otherwise |
| Text.ParseHex | Backend/models/customerModel.js:26 | after `0x` or `0X`, `parseInt` reads a run of hexadecimal digits as a base-16 number |
| Text.ParseHexExample | Backend/models/customerModel.js:26 | `parseInt("0x10")` is 16 |
| Text.ParseStopsAtNonDigit | Backend/models/customerModel.js:26 | `parseInt` ignores whatever follows a run of decimal digits from its first non-digit on, unless the run is a lone `0` followed by `x` or `X` |
| Text.ParseStopsExample | Backend/models/customerModel.js:26 | `parseInt("12x5")` is 12 |
| Text.ParseDigits | Backend/models/customerModel.js:26 | `parseInt` of a digit string, with or without a minus sign, is its value |
| Text.ParseIntOfDecimal | Backend/models/customerModel.js:26 | `parseInt` of any integer's string form gives back the integer |
| Ordering.Insert | Backend/server.js:62 | inserting into a sorted list keeps it sorted and adds exactly one element |
| Ordering.SortBy | Backend/server.js:62 | `ORDER BY`: the result is sorted on the key and is a permutation of the input |
| RoomResolver.RoomId | Backend/server.js:221 | the room id is the two string forms joined with `-`, the lesser first under the default sort |
| RoomResolver.RoomIdCommutative | MyNewApp/src/screens/ChatScreen.js:163-165 | both participants compute the same room, whichever opens the chat |
| RoomResolver.RoomOfCommutative | Backend/server.js:221 | the same for numeric ids, as the server and the screen both use them |
| RoomResolver.RoomIdSplits | Backend/server.js:221 | two dash-free forms are recovered by splitting their room id at `-` |
| RoomResolver.DecimalInjective | Backend/server.js:221 | distinct non-negative ids have distinct string forms |
| RoomResolver.RoomOfInjective | Backend/server.js:221 | two pairs of non-negative ids share a room only if they are the same pair, so conversations never share a room |
| MessageStore.Insert | Backend/server.js:237-263 | `INSERT ... RETURNING *`: one row appended, unread, stamped with the clock, with an id above every earlier id |
| MessageStore.HistoryRows | Backend/server.js:57-64 | the rows of the conversation in either direction, and only those, ascending by `created_at` |
| MessageStore.ToWiresMembers | Backend/server.js:66-75 | every selected row appears in the normalised answer |
| MessageStore.History | Backend/server.js:57-75 | the history answer: one entry per conversation row, in either direction, in time order, none missing |
| MessageStore.WiresFollowRows | Backend/server.js:66-75 | normalising the rows keeps their time order and their participants |
| MessageStore.LocationRowsByRecency | Backend/server.js:91-98 | the conversation's location rows that carry data, newest first |
| MessageStore.LocationHistory | Backend/server.js:91-111 | at most 20 location entries, each with data, newest first, the first 20 of the qualifying rows |
| MessageStore.LimitedWires | Backend/server.js:98-111 | cutting a newest-first list at 20 keeps it newest-first and keeps only location entries |
| MessageStore.LocationHistoryKeepsNewest | Backend/server.js:98-99 | no dropped location row is newer than a returned one |
| MessageStore.MarkRows | Backend/server.js:130-135 | exactly the unread rows from the sender to the receiver become read; every other row is unchanged |
| MessageStore.MarkRead | Backend/server.js:130-138 | the update reports the number of rows it flips, keeps every id and never un-reads a row |
| MessageStore.MarkReadRequest | Backend/server.js:122-138 | a missing or zero id answers 400 and changes nothing; otherwise nothing from the technician to the user is left unread |
| MessageStore.MarkRowsClears | Backend/server.js:130-135 | after the update no matching row is unread |
| MessageStore.MarkReadIdempotent | Backend/server.js:130-138 | a second mark-read right after the first flips nothing and reports 0 |
| MessageStore.MarkRowsUnread | Backend/server.js:130-160 | the receiver's unread count drops by exactly the number of rows flipped |
| MessageStore.MarkReadDropsUnreadCount | Backend/server.js:130-160 | the unread-count query drops by the `updatedCount` mark-read returns |
| MessageStore.UnreadCountShadowed | Backend/server.js:47-166 | no `GET /api/messages/...` path reaches the unread-count handler: the earlier history route takes `unread/<id>` with `userId` set to `"unread"` |
| MessageStore.MarkRowsOthers | Backend/server.js:130-160 | other recipients' unread rows are untouched |
| MessageStore.MarkReadKeepsOthers | Backend/server.js:130-160 | other users' unread counts, as the count query computes them, are unchanged by a mark-read |
| MessageStore.InsertRaisesUnread | Backend/server.js:154-160 | a new message raises its receiver's unread count by one and nobody else's |
| Channel.JoinRoom | Backend/server.js:194-198 | the connection joins the room, other rooms are unchanged, and only the joiner gets `roomJoined` |
| Channel.LeaveRoom | Backend/server.js:201-204 | the connection leaves the room, an emptied room disappears, nothing is emitted |
| Channel.Disconnect | Backend/server.js:316-318 | a closed connection is in no room afterwards and no room is left empty |
| Channel.StoredKind | Backend/server.js:211-256 | the stored type is the given type when non-empty, `'text'` otherwise, never empty |
| Channel.SendMessage | Backend/server.js:207-300 | missing fields, bad location data and database failures each answer the sender alone with `messageError` and store nothing; a valid send stores one unread row stamped with the server clock, broadcasts it to the room and acknowledges the new id to the sender |
| Channel.Typing | Backend/server.js:304-308 | the typing flag goes to everyone in the room except the sender; nothing is stored |
| Channel.RejectedSendIsPrivate | Backend/server.js:214-218 | a rejected send reaches nobody but the sender, only with an error, and leaves the server as it was |
| Channel.BroadcastIsolated | Backend/server.js:284-292 | a stored message reaches exactly the room's members, and the sender also gets the acknowledgement |
| Channel.BroadcastMatchesHistory | Backend/server.js:267-284 | the broadcast copy is the entry a later history fetch returns for the same row |
| Channel.TypingNotEchoed | Backend/server.js:304-308 | a typing event never reaches the typist and never touches the table |
| Channel.LocationWithoutData | Backend/server.js:227-260 | a `location` send without data is stored with type `location` and no location |
| ChatClient.Receive | MyNewApp/src/screens/ChatScreen.js:74-91 | the list keeps its prefix and grows by the incoming message exactly when no held message matches it |
| ChatClient.ReceiveIdempotent | MyNewApp/src/screens/ChatScreen.js:78-90 | receiving the same broadcast twice changes the list at most once |
| ChatClient.OptimisticEchoKeepsLocalCopy | MyNewApp/src/screens/ChatScreen.js:78-90 | the server's echo of one's own message within one second is swallowed; the local id-less copy stays |
| ChatClient.NewMessageWithinWindowDropped | MyNewApp/src/screens/ChatScreen.js:78-90 | a different message with its own id, from the same sender, within one second of a held one, is not shown |
| ChatClient.OnInputChange | MyNewApp/src/screens/ChatScreen.js:344-358 | typing keeps the text and emits one typing event only when connected with a socket |
| ChatClient.SendText | MyNewApp/src/screens/ChatScreen.js:307-342 | a blank input or a missing connection sends nothing; otherwise one trimmed, id-less message is appended and sent, the input is cleared and typing is switched off |
| ChatClient.SendLocation | MyNewApp/src/screens/ChatScreen.js:271-305 | a location is appended from this screen's user to its peer, stamped with the device clock, with the pin prefix before its address; it is emitted only when a socket exists |
| ChatClient.OnUserTyping | MyNewApp/src/screens/ChatScreen.js:105-109 | the indicator follows typing events from others; the screen's own are ignored |
| ChatClient.TypingReachesPeerOnly | MyNewApp/src/screens/ChatScreen.js:105-109 | one screen's typing raises the other screen's indicator, never its own |
| ChatClient.LoadHistory | MyNewApp/src/screens/ChatScreen.js:167-215 | a successful load replaces the whole list and requests mark-read; a failed one changes nothing |
| ChatClient.OnConnect | MyNewApp/src/screens/ChatScreen.js:49-57 | connecting joins the conversation's room |
| ChatClient.Teardown | MyNewApp/src/screens/ChatScreen.js:117-131 | leaving the screen leaves the same room and drops the socket |
| ChatClient.BothScreensShareRoom | MyNewApp/src/screens/ChatScreen.js:54 | the two screens of a conversation join one room, and a message either of them sends to the other is broadcast by the server to that room |
| ChatScenario.EndToEnd | Backend/server.js:194-300 | after both sides join and one sends, both screens receive the stored message with the acknowledged id; it is in the history; the receiver has one unread message until mark-read clears it |
| ViewBids.Plain | MyNewApp/src/screens/ViewBids.js:37 | the list shown as fetched, one card per bid, in order |
| ViewBids.FirstWithTech | MyNewApp/src/screens/ViewBids.js:115 | `find`: the first bid of the technician, or none when no bid is theirs |
| ViewBids.RankedSection | MyNewApp/src/screens/ViewBids.js:114-121 | one card per ranking entry, in ranking order, with rank `i + 1` and the entry's score |
| ViewBids.Unranked | MyNewApp/src/screens/ViewBids.js:124-126 | exactly the bids whose id no ranked card carries, in fetched order |
| ViewBids.ApplyRanking | MyNewApp/src/screens/ViewBids.js:114-136 | the ranked cards followed by the unranked bids; the plain list when the ranking call fails |
| ViewBids.RankedFollowsRanking | MyNewApp/src/screens/ViewBids.js:114-121 | card `i` shows the first bid of the `i`-th ranked technician, or no bid when that technician did not bid |
| ViewBids.UnrankedFollow | MyNewApp/src/screens/ViewBids.js:124-129 | after the ranked cards come only unranked fetched bids, and every unranked fetched bid |
| ViewBids.IdsKept | MyNewApp/src/screens/ViewBids.js:114-136 | every fetched bid's id is on some card |
| ViewBids.IdShown | MyNewApp/src/screens/ViewBids.js:114-136 | a given fetched bid's id is on some card |
| ViewBids.NoBidDropped | MyNewApp/src/screens/ViewBids.js:114-136 | with unique bid ids every fetched bid is shown on some card |
| ViewBids.Displayed | MyNewApp/src/screens/ViewBids.js:33-37 | ranking is attempted only with a description and at least one bid |
| ViewBids.AcceptedId | MyNewApp/src/screens/ViewBids.js:40-42 | the id of the first accepted card, or none when no card is accepted |
| ViewBids.Button | MyNewApp/src/screens/ViewBids.js:184-220 | the four actions, each exactly under its condition, in the code's priority order |
| ViewBids.Fetch | MyNewApp/src/screens/ViewBids.js:33-49 | a failed fetch keeps the screen; a successful one shows the displayed list and records its first accepted bid |
| ViewBids.Approve | MyNewApp/src/screens/ViewBids.js:139-158 | a started job makes this bid the accepted one with status `in_progress`; a failure changes nothing |
| ViewBids.ApprovedButtons | MyNewApp/src/screens/ViewBids.js:148-149 | after approval the approved card offers completion and every other card shows another bid was accepted |
| ViewBids.AtMostOneMarkComplete | MyNewApp/src/screens/ViewBids.js:193-202 | with unique card ids at most one card offers completion |
| TechnicianProfiles.TrimAll | Backend/controllers/technicianController.js:21 | `map(s => s.trim())`, piece by piece |
| TechnicianProfiles.TrimAllMembers | Backend/controllers/technicianController.js:21 | the trimmed pieces are exactly the trims of the split pieces |
| TechnicianProfiles.NormaliseSkills | Backend/controllers/technicianController.js:17-24 | an array keeps its non-blank entries in order; a string keeps its non-empty trimmed comma pieces; anything else is refused |
| TechnicianProfiles.NoBlankSkills | Backend/controllers/technicianController.js:17-24 | no saved skill is blank, and skills from a string carry no surrounding white space |
| TechnicianProfiles.Availability | Backend/controllers/technicianController.js:33 | a given availability is kept; none gives a non-empty default |
| TechnicianProfiles.HasProfileCount | Backend/models/technicianModel.js:6-11 | the existence check succeeds exactly when some row belongs to the technician |
| TechnicianProfiles.Overwrite | Backend/models/technicianModel.js:13-22 | the `UPDATE` replaces every row of the technician and only those |
| TechnicianProfiles.Upsert | Backend/models/technicianModel.js:3-39 | an existing technician's rows are overwritten, otherwise one row is appended |
| TechnicianProfiles.OverwriteCount | Backend/models/technicianModel.js:13-22 | the update changes no technician's row count |
| TechnicianProfiles.UpsertCount | Backend/models/technicianModel.js:3-39 | an update keeps every technician's row count; an insert adds one row for the saved technician only |
| TechnicianProfiles.UpsertOneRow | Backend/models/technicianModel.js:3-39 | starting from at most one row, the technician has exactly one row afterwards; others are unaffected |
| TechnicianProfiles.UpsertIdempotent | Backend/models/technicianModel.js:3-39 | saving the same profile twice equals saving it once |
| TechnicianProfiles.FindProfile | Backend/models/technicianModel.js:44-55 | the technician's first row, or none exactly when they have no row |
| TechnicianProfiles.UpsertThenFind | Backend/models/technicianModel.js:3-55 | after saving, the profile read back is the saved one |
| TechnicianProfiles.Mean | Backend/models/technicianModel.js:51 | `AVG`: the value whose product with the count is the sum |
| TechnicianProfiles.ProfileWithRating | Backend/models/technicianModel.js:41-62 | the profile found, the number of the technician's ratings, and their mean, absent exactly when there are none |
| TechnicianProfiles.GetProfile | Backend/controllers/technicianController.js:43-52 | 404 with its message exactly when the technician has no profile; otherwise 200 with the profile and its rating summary as the body |
| TechnicianProfiles.PostProfile | Backend/controllers/technicianController.js:8-40 | missing fields and a bad skills type answer 400, a database failure 500, and none of them changes the table; 201 saves the normalised profile |
| TechnicianProfiles.PostThenGet | Backend/controllers/technicianController.js:28-52 | after a successful save, a fetch answers 200 with exactly the saved profile: the request's bio and location, its skills normalised, its availability defaulted |
| Auth.OtpValue | Backend/controllers/authController.js:37 | the code lies between 100000 and 999999, and every value in that range is reachable |
| Auth.DecimalLength | Backend/controllers/authController.js:37 | a number between `10^(k-1)` and `10^k` prints with `k` characters |
| Auth.OtpHasSixDigits | Backend/controllers/authController.js:36-37 | the mailed code is always exactly six digits |
| Auth.Signup | Backend/controllers/authController.js:27-50 | a known e-mail answers 400 and changes nothing; otherwise an unverified user with a ten-minute code is created, with 201, or 500 if the mail fails |
| Auth.Verify | Backend/controllers/authController.js:52-72 | 404 for an unknown e-mail, 200 for an already verified user, 400 for a wrong or expired code, and otherwise the user is verified and the code cleared |
| Auth.VerifyThenIdempotent | Backend/controllers/authController.js:59-65 | after a successful verification every later one answers "Already verified." and changes nothing |
| Auth.SignupThenVerify | Backend/controllers/authController.js:37-65 | the mailed code verifies the account up to and including its expiry, and is refused one millisecond after |
| Auth.WrongCodeRefused | Backend/controllers/authController.js:61-63 | a code other than the stored one is refused at any time |
| Auth.Login | Backend/controllers/authController.js:74-97 | 404, 403, 401 and 200, each exactly under its condition |
| Auth.LoginNeedsVerification | Backend/controllers/authController.js:27-97 | a fresh sign-up cannot log in until verified; afterwards the password decides |
| Issues.AddIssue | Backend/models/customerModel.js:3-12 | the new row is appended with the next id, the given owner, text and image, and the id invariant is kept |
| Issues.IssuesByUser | Backend/models/customerModel.js:14-35 | `'all'` lists every row; an unparsable id is a query error; otherwise exactly the owner's rows; always newest first |
| Issues.AllIssues | Backend/controllers/customerController.js:84-94 | every row, newest first |
| Common.Dispatch | Backend/routes/customerRoutes.js:16-19 | the first declared route that matches handles the request; no match exactly when no route matches |
| Issues.AllRouteShadowed | Backend/routes/customerRoutes.js:16-19 | `/issues/all` reaches the per-user handler, whose `'all'` case gives the same list as `getAllIssues` |
| Issues.DeleteIssue | Backend/models/customerModel.js:39-45 | only a row matching both id and owner is removed; no such row answers 404 and changes nothing |
| Issues.FilterAll | Backend/models/customerModel.js:39-45 | with no matching row the delete removes nothing |
| Issues.DeleteRemovesOne | Backend/models/customerModel.js:39-45 | with unique ids a successful delete removes exactly one row |
| Issues.FilterRemovesOne | Backend/models/customerModel.js:39-45 | with unique ids, filtering out the one owned row shortens the table by one |
| Issues.Updated | Backend/models/customerModel.js:47-68 | the text is replaced; the image only when a new one was uploaded |
| Issues.UpdateRows | Backend/models/customerModel.js:47-68 | only the matched row changes |
| Issues.UpdateIssue | Backend/controllers/customerController.js:72-75 | no matching row answers 404 and changes nothing; otherwise the matched row's text, and its image when one was uploaded, change and nothing else does |
| Issues.OwnerScoped | Backend/controllers/customerController.js:54-75 | anybody but the owner gets 404 from both delete and update, and the table is unchanged |
| Issues.PostedIsListed | Backend/models/customerModel.js:3-26 | a posted request appears in its owner's listing and in the `'all'` listing |
| TechnicianDashboard.AvailableIssues | MyNewApp/src/screens/TechnicianDashboard.js:52-68 | exactly the fetched requests with an id, a text and an owner, in fetched order; nothing on failure |
| TechnicianDashboard.Tag | MyNewApp/src/screens/TechnicianDashboard.js:99-102 | each bid is paired with the request it was fetched for |
| TechnicianDashboard.TagOwn | MyNewApp/src/screens/TechnicianDashboard.js:96-102 | the tagged bids of one request are exactly that request's bids by the technician |
| TechnicianDashboard.CollectMyBids | MyNewApp/src/screens/TechnicianDashboard.js:92-112 | exactly the technician's own bids on the listed requests, each tagged with its request |
| TechnicianDashboard.FetchMyBids | MyNewApp/src/screens/TechnicianDashboard.js:75-115 | nothing changes without a user id; with one, the list is the technician's bids collected from the fetched requests, and no listed request means no bids |
| TechnicianDashboard.AlreadyBidIff | MyNewApp/src/screens/TechnicianDashboard.js:270-272 | the "already bid" check holds exactly when one of the technician's fetched bids names the request |
| TechnicianDashboard.CheckBid | MyNewApp/src/screens/TechnicianDashboard.js:212-233 | the three checks in order, each alert exactly under its condition (blank field, then bad cost, then missing ids); a sent bid carries the trimmed, non-empty fields |
| TechnicianDashboard.PayloadTrimmed | MyNewApp/src/screens/TechnicianDashboard.js:231-232 | the sent fields are already trimmed |
| TechnicianDashboard.ImageUrl | MyNewApp/src/screens/TechnicianDashboard.js:275-279 | no URL without a name; otherwise the base URL without its first `/api`, then `/uploads/` and the name |
| TechnicianDashboard.ApiAtEnd | MyNewApp/src/screens/TechnicianDashboard.js:21 | the base URL's only `/api` is its last four characters |
| TechnicianDashboard.ServerRoot | MyNewApp/src/screens/TechnicianDashboard.js:277 | removing the first `/api` from the base URL leaves the server root |
| TechnicianDashboard.ImageUrlValue | MyNewApp/src/screens/TechnicianDashboard.js:275-279 | image links are the server root `http://192.333.33.237:5000`, then `/uploads/` and the name |
| TechnicianDashboard.CurrentTabData | MyNewApp/src/screens/TechnicianDashboard.js:445-456 | each tab shows its own list; an unknown tab shows an empty list |
| TechnicianDashboard.TabsShowFetched | MyNewApp/src/screens/TechnicianDashboard.js:445-456 | after the fetches, the available tab lists only complete requests from the answer and the my-bids tab lists exactly the technician's own bids on the fetched requests |

## Left out

- Transport:
  - Socket.IO reconnection, listener registration and removal, and the connection-error handlers;
  - concurrency between handlers: each handler is one atomic step.
- Device location, reverse geocoding and the map views: a location arrives as an `Option<Location>` parameter.
- The ranking service's TF-IDF scoring and the request that reaches it: the ranking is an input list, with `None` for a failed call.
- Floating point: the rating average is the exact mean (`IsMean`), not `parseFloat(...).toFixed(1)`, and `avgRating` is shown as absent rather than `0`. The cost's `isNaN`/`parseFloat` test is the `costValid` parameter, and the `price` field is not part of the modelled payload.
- bcrypt hashing and comparison, JWT signing, the mailer and `Math.random`: these are parameters (`hashed`, `passwordMatches`, `mailOk`, `draw`).
- Database errors other than the modelled `dbOk` outcomes and the `NaN` query error.
- Every request handler's generic 500 catch, except where `dbOk` models it.
- Ids are integers throughout. JavaScript's string-versus-number coercions of ids are not modelled, except where string forms matter: room ids, typing events, route segments.
- Timestamps are millisecond integers. ISO date parsing and formatting are not modelled.
- The JSON round trip of `location_data` is the identity.
- E-mail uniqueness is the key of the `Users` map.
- Multer's file handling: the stored file name is the `upload` parameter.
- The other screens, the admin, job, rating and bid routes, and `Backend/routes/messageRoutes.js` are not part of this model.
- The 400 check on the history endpoint (`Backend/server.js:53-55`): Express route parameters are never empty there, so that branch cannot be reached. The whole unread-count handler (`Backend/server.js:146-166`) is unreachable, as stated above.
- The history handler's answer to a non-numeric `userId` such as `"unread"`: PostgreSQL rejects the comparison with the integer column and the handler answers 500. Database errors are not modelled.
- The chat screen's loading flag, location-permission state, scrolling and alerts.
- The one-second timer that sends `isTyping: false` after the last keystroke.
- The accepted-jobs fetch on the dashboard: its list is passed through unchanged.
- The job-status request in `fetchBids` is the `jobStatus` parameter of `Fetch`; a failed request keeps the previous status.
- TechnicianProfiles.ProfileWithRating: the average is the exact mean rather than the one-decimal string `toFixed(1)` produces, and with no ratings it is absent (`None`) rather than the `0` that `Backend/models/technicianModel.js:60` reports.
- Text.ParseInt: the result is an exact integer, while JavaScript's `parseInt` returns a double, so digit runs above 2^53 are not rounded as they are there.

=== FILE: auth.dfy ===
/** E-mail sign-up with a one-time password: `signup`, `verifyOTP` and
    `login`, over a users table keyed by e-mail. Hashing, the mailer, the
    clock and the random draw are parameters. */
module Auth {
  import opened Common
  import opened Text

  datatype User = User(
    name: string,
    passwordHash: string,
    role: string,
    otp: Option<string>,
    otpExpiresAt: Option<int>,
    isVerified: bool)

  /** The `users` table; the e-mail column is unique. */
  type Users = map<string, User>

  datatype Reply = Reply(status: nat, message: string)

  /** How long a code stays valid: ten minutes, in milliseconds. */
  const OtpLifetime: int := 10 * 60 * 1000

  const OtpLow: nat := 100000
  const OtpSpan: nat := 900000

  /** `Math.floor(100000 + Math.random() * 900000)`, where `draw` stands for
      the random number: every value in the range is some draw's code. */
  function OtpValue(draw: nat): (n: nat)
    ensures OtpLow <= n < OtpLow + OtpSpan
    ensures draw < OtpSpan ==> n == OtpLow + draw
  {
    OtpLow + draw % OtpSpan
  }

  function Pow10(k: nat): (p: nat)
    ensures p >= 1
  {
    if k == 0 then 1 else 10 * Pow10(k - 1)
  }

  /** A number with `k` digits prints with `k` characters. */
  lemma {:induction false} DecimalLength(n: nat, k: nat)
    requires k >= 1 && Pow10(k - 1) <= n < Pow10(k)
    ensures |NatToDecimal(n)| == k
  {
    if k > 1 {
      assert Pow10(k - 1) == 10 * Pow10(k - 2);
      assert Pow10(k) == 10 * Pow10(k - 1);
      assert Pow10(k - 2) <= n / 10 < Pow10(k - 1);
      DecimalLength(n / 10, k - 1);
    }
  }

  /** The code sent by mail always has six digits. */
  lemma OtpHasSixDigits(draw: nat)
    ensures |NatToDecimal(OtpValue(draw))| == 6
    ensures forall i :: 0 <= i < 6 ==> IsDigit(NatToDecimal(OtpValue(draw))[i])
  {
    assert Pow10(5) == 100000 && Pow10(6) == 1000000;
    DecimalLength(OtpValue(draw), 6);
  }

  /** `signup` at clock `now`. `hashed` is what bcrypt produced and `mailOk`
      whether the mail went out; the user is created before the mail is sent,
      so a mail failure answers 500 but keeps the new row. */
  function Signup(users: Users, name: string, email: string, hashed: string, role: string,
                  draw: nat, now: int, mailOk: bool): (r: (Users, Reply))
    ensures email in users ==> r == (users, Reply(400, "Email already registered."))
    ensures email !in users ==>
              && r.0 == users[email := User(name, hashed, role, Some(NatToDecimal(OtpValue(draw))),
                                            Some(now + OtpLifetime), false)]
              && r.1.status == (if mailOk then 201 else 500)
  {
    if email in users then (users, Reply(400, "Email already registered."))
    else
      var code := NatToDecimal(OtpValue(draw));
      var created := users[email := User(name, hashed, role, Some(code), Some(now + OtpLifetime), false)];
      if mailOk then (created, Reply(201, "Signup successful. OTP sent to your email."))
      else (created, Reply(500, "Internal server error."))
  }

  /** `new Date(user.otp_expires_at)`: a `NULL` expiry is the epoch. */
  function ExpiryOf(u: User): int {
    if u.otpExpiresAt.Some? then u.otpExpiresAt.value else 0
  }

  /** The code matches and the clock is not past the expiry (equal is accepted). */
  predicate CodeAccepted(u: User, otp: string, now: int) {
    u.otp == Some(otp) && now <= ExpiryOf(u)
  }

  /** `verifyOTP` at clock `now`. */
  function Verify(users: Users, email: string, otp: string, now: int): (r: (Users, Reply))
    ensures email !in users ==> r == (users, Reply(404, "User not found."))
    ensures email in users && users[email].isVerified ==> r == (users, Reply(200, "Already verified."))
    ensures email in users && !users[email].isVerified && !CodeAccepted(users[email], otp, now) ==>
              r == (users, Reply(400, "OTP is invalid or expired."))
    ensures email in users && !users[email].isVerified && CodeAccepted(users[email], otp, now) ==>
              && r.1.status == 200
              && r.0 == users[email := users[email].(isVerified := true, otp := None, otpExpiresAt := None)]
  {
    if email !in users then (users, Reply(404, "User not found."))
    else
      var u := users[email];
      if u.isVerified then (users, Reply(200, "Already verified."))
      else if !CodeAccepted(u, otp, now) then (users, Reply(400, "OTP is invalid or expired."))
      else (users[email := u.(isVerified := true, otp := None, otpExpiresAt := None)],
            Reply(200, "Email verified successfully. Please login now."))
  }

  /** After a successful verification every later verification answers
      "Already verified." and changes nothing, whatever code is given. */
  lemma VerifyThenIdempotent(users: Users, email: string, otp: string, now: int, otp': string, later: int)
    requires Verify(users, email, otp, now).1.status == 200
    ensures var after := Verify(users, email, otp, now).0;
            Verify(after, email, otp', later) == (after, Reply(200, "Already verified."))
  {
  }

  /** The code issued at sign-up verifies the account until, and including,
      the moment it expires, and not a millisecond later. */
  lemma SignupThenVerify(users: Users, name: string, email: string, hashed: string, role: string,
                         draw: nat, now: int, mailOk: bool, later: int)
    requires email !in users
    ensures var after := Signup(users, name, email, hashed, role, draw, now, mailOk).0;
            var code := NatToDecimal(OtpValue(draw));
            && (later <= now + OtpLifetime ==>
                  Verify(after, email, code, later).1.status == 200 && Verify(after, email, code, later).0[email].isVerified)
            && (later > now + OtpLifetime ==> Verify(after, email, code, later).1.status == 400)
  {
  }

  /** A code other than the one on file is refused, at any time. */
  lemma WrongCodeRefused(users: Users, email: string, otp: string, now: int)
    requires email in users && !users[email].isVerified
    requires users[email].otp != Some(otp)
    ensures Verify(users, email, otp, now) == (users, Reply(400, "OTP is invalid or expired."))
  {
  }

  /** `login`; `passwordMatches` is bcrypt's comparison of the given password
      with the stored hash. */
  function Login(users: Users, email: string, passwordMatches: bool): (r: Reply)
    ensures r.status == 404 <==> email !in users
    ensures r.status == 403 <==> email in users && !users[email].isVerified
    ensures r.status == 401 <==> email in users && users[email].isVerified && !passwordMatches
    ensures r.status == 200 <==> email in users && users[email].isVerified && passwordMatches
  {
    if email !in users then Reply(404, "User not found.")
    else if !users[email].isVerified then Reply(403, "Please verify your email before login.")
    else if !passwordMatches then Reply(401, "Incorrect password.")
    else Reply(200, "Login successful.")
  }

  /** A fresh sign-up cannot log in, right or wrong password, until verified;
      after verification the password decides. */
  lemma LoginNeedsVerification(users: Users, name: string, email: string, hashed: string, role: string,
                               draw: nat, now: int, mailOk: bool, good: bool, later: int)
    requires email !in users && later <= now + OtpLifetime
    ensures var signed := Signup(users, name, email, hashed, role, draw, now, mailOk).0;
            var verified := Verify(signed, email, NatToDecimal(OtpValue(draw)), later).0;
            && Login(signed, email, good).status == 403
            && Login(verified, email, good).status == (if good then 200 else 401)
  {
  }
}

=== FILE: bids.dfy ===
/** The customer's bid list for one issue: the merge of a technician ranking
    into the fetched bids, the accepted-bid lookup, and the action offered on
    each bid card. The ranking itself is an input list. */
module ViewBids {
  import opened Common

  datatype Bid = Bid(id: int, technicianId: int, status: string, message: string)

  /** One entry of the ranking service's answer. */
  datatype RankedTech = RankedTech(technicianId: int, matchScore: real)

  /** A card of the list: the bid it shows (`None` when the ranking named a
      technician without a bid, so the spread copied nothing), and the score
      and 1-based rank attached by the ranking. */
  datatype BidView = BidView(base: Option<Bid>, matchScore: Option<real>, mlRank: Option<nat>)

  /** The card's `id`: `undefined` when it carries no bid. */
  function ViewId(v: BidView): Option<int> {
    if v.base.Some? then Some(v.base.value.id) else None
  }

  /** The fetched list shown as is. */
  function Plain(bids: seq<Bid>): (r: seq<BidView>)
    ensures |r| == |bids|
    ensures forall i :: 0 <= i < |bids| ==> r[i] == BidView(Some(bids[i]), None, None)
    ensures forall v :: v in r ==> v.base.Some? && v.base.value in bids && v.matchScore.None? && v.mlRank.None?
  {
    seq(|bids|, i requires 0 <= i < |bids| => BidView(Some(bids[i]), None, None))
  }

  /** `bids.find(bid => bid.technician_id === id)`. */
  function FirstWithTech(bids: seq<Bid>, technicianId: int): (r: Option<Bid>)
    ensures r.None? <==> forall i :: 0 <= i < |bids| ==> bids[i].technicianId != technicianId
    ensures r.Some? ==> exists k :: 0 <= k < |bids| && bids[k] == r.value && r.value.technicianId == technicianId &&
                                    forall j :: 0 <= j < k ==> bids[j].technicianId != technicianId
  {
    if |bids| == 0 then None
    else if bids[0].technicianId == technicianId then Some(bids[0])
    else
      var r := FirstWithTech(bids[1..], technicianId);
      assert forall i :: 1 <= i < |bids| ==> bids[i] == bids[1..][i - 1];
      if r.Some? then
        var k :| 0 <= k < |bids[1..]| && bids[1..][k] == r.value && r.value.technicianId == technicianId &&
                 forall j :: 0 <= j < k ==> bids[1..][j].technicianId != technicianId;
        assert bids[k + 1] == r.value;
        r
      else r
  }

  /** The ranked section: one card per ranking entry, in ranking order. */
  function RankedSection(bids: seq<Bid>, ranking: seq<RankedTech>): (r: seq<BidView>)
    ensures |r| == |ranking|
    ensures forall i :: 0 <= i < |ranking| ==>
              r[i] == BidView(FirstWithTech(bids, ranking[i].technicianId), Some(ranking[i].matchScore), Some(i + 1))
  {
    seq(|ranking|, i requires 0 <= i < |ranking| =>
          BidView(FirstWithTech(bids, ranking[i].technicianId), Some(ranking[i].matchScore), Some(i + 1)))
  }

  /** Some card of `section` has the id `id`. */
  predicate HasId(section: seq<BidView>, id: int) {
    exists k :: 0 <= k < |section| && ViewId(section[k]) == Some(id)
  }

  function NotIn(section: seq<BidView>): Bid -> bool {
    (b: Bid) => !HasId(section, b.id)
  }

  /** The fallback: bids whose id no ranked card carries, in their fetched order. */
  function Unranked(bids: seq<Bid>, section: seq<BidView>): (u: seq<Bid>)
    ensures IsSubsequence(u, bids)
    ensures forall b :: b in u <==> b in bids && !HasId(section, b.id)
  {
    FilterIsSubsequence(bids, NotIn(section));
    Filter(bids, NotIn(section))
  }

  /** The list `applyMLRanking` returns; `None` is a failed ranking call. */
  function ApplyRanking(bids: seq<Bid>, ranking: Option<seq<RankedTech>>): (r: seq<BidView>)
    ensures ranking.None? ==> r == Plain(bids)
    ensures ranking.Some? ==>
              && |ranking.value| <= |r|
              && r[..|ranking.value|] == RankedSection(bids, ranking.value)
              && r[|ranking.value|..] == Plain(Unranked(bids, RankedSection(bids, ranking.value)))
  {
    match ranking
    case None => Plain(bids)
    case Some(order) =>
      var section := RankedSection(bids, order);
      section + Plain(Unranked(bids, section))
  }

  /** The ranked cards follow the ranking: card `i` shows the first bid of the
      `i`-th ranked technician, with that entry's score and rank `i + 1`. */
  lemma RankedFollowsRanking(bids: seq<Bid>, ranking: seq<RankedTech>, i: nat)
    requires i < |ranking|
    ensures var v := ApplyRanking(bids, Some(ranking))[i];
            && v.mlRank == Some(i + 1)
            && v.matchScore == Some(ranking[i].matchScore)
            && (v.base.Some? ==> v.base.value in bids && v.base.value.technicianId == ranking[i].technicianId)
            && (v.base.None? ==> forall b :: b in bids ==> b.technicianId != ranking[i].technicianId)
  {
    var r := ApplyRanking(bids, Some(ranking));
    assert r[i] == r[..|ranking|][i];
  }

  /** After the ranked cards come exactly the bids no ranked card carries, in
      their fetched order, without score or rank. */
  lemma UnrankedFollow(bids: seq<Bid>, ranking: seq<RankedTech>)
    ensures var r := ApplyRanking(bids, Some(ranking));
            var section := RankedSection(bids, ranking);
            && (forall k :: |ranking| <= k < |r| ==>
                  r[k].mlRank.None? && r[k].base.Some? && r[k].base.value in bids
                  && !HasId(section, r[k].base.value.id))
            && (forall b :: b in bids && !HasId(section, b.id) ==>
                  BidView(Some(b), None, None) in r[|ranking|..])
  {
    var r := ApplyRanking(bids, Some(ranking));
    var section := RankedSection(bids, ranking);
    var u := Unranked(bids, section);
    forall k | |ranking| <= k < |r|
      ensures r[k].mlRank.None? && r[k].base.Some? && r[k].base.value in bids
              && !HasId(section, r[k].base.value.id)
    {
      assert r[k] == r[|ranking|..][k - |ranking|];
      assert u[k - |ranking|] in u;
    }
    forall b | b in bids && !HasId(section, b.id)
      ensures BidView(Some(b), None, None) in r[|ranking|..]
    {
      var j :| 0 <= j < |u| && u[j] == b;
      assert Plain(u)[j] == BidView(Some(b), None, None);
    }
  }

  /** Every fetched bid's id is on some card, whether or not it was ranked. */
  lemma IdsKept(bids: seq<Bid>, ranking: Option<seq<RankedTech>>)
    ensures forall b :: b in bids ==> exists k :: 0 <= k < |ApplyRanking(bids, ranking)| &&
                                                 ViewId(ApplyRanking(bids, ranking)[k]) == Some(b.id)
  {
    forall b | b in bids
      ensures exists k :: 0 <= k < |ApplyRanking(bids, ranking)| && ViewId(ApplyRanking(bids, ranking)[k]) == Some(b.id)
    {
      IdShown(bids, ranking, b);
    }
  }

  lemma IdShown(bids: seq<Bid>, ranking: Option<seq<RankedTech>>, b: Bid)
    requires b in bids
    ensures exists k :: 0 <= k < |ApplyRanking(bids, ranking)| && ViewId(ApplyRanking(bids, ranking)[k]) == Some(b.id)
  {
    var r := ApplyRanking(bids, ranking);
    match ranking
    case None =>
      var i :| 0 <= i < |bids| && bids[i] == b;
      assert ViewId(r[i]) == Some(b.id);
    case Some(order) =>
      var section := RankedSection(bids, order);
      if HasId(section, b.id) {
        var k :| 0 <= k < |section| && ViewId(section[k]) == Some(b.id);
        assert r[k] == r[..|order|][k];
      } else {
        UnrankedFollow(bids, order);
        var k :| 0 <= k < |r[|order|..]| && r[|order|..][k] == BidView(Some(b), None, None);
        assert r[|order| + k] == BidView(Some(b), None, None);
      }
  }

  predicate UniqueIds(bids: seq<Bid>) {
    forall i, j :: 0 <= i < j < |bids| ==> bids[i].id != bids[j].id
  }

  /** With unique bid ids, no fetched bid is dropped: each one is shown on a card. */
  lemma NoBidDropped(bids: seq<Bid>, ranking: Option<seq<RankedTech>>)
    requires UniqueIds(bids)
    ensures forall b :: b in bids ==> exists k :: 0 <= k < |ApplyRanking(bids, ranking)| &&
                                                 ApplyRanking(bids, ranking)[k].base == Some(b)
  {
    var r := ApplyRanking(bids, ranking);
    IdsKept(bids, ranking);
    forall b | b in bids
      ensures exists k :: 0 <= k < |r| && r[k].base == Some(b)
    {
      var k :| 0 <= k < |r| && ViewId(r[k]) == Some(b.id);
      var shown := r[k].base.value;
      assert shown in bids by {
        match ranking
        case None =>
        case Some(order) =>
          if k < |order| {
            assert r[k] == r[..|order|][k];
          } else {
            UnrankedFollow(bids, order);
          }
      }
      var i :| 0 <= i < |bids| && bids[i] == b;
      var j :| 0 <= j < |bids| && bids[j] == shown;
      assert i == j;
    }
  }

  /** `fetchBids`: ranking is attempted only with a description and at least
      one bid; the ranking call's failure leaves the fetched list as it is. */
  function Displayed(bids: seq<Bid>, description: string, ranking: Option<seq<RankedTech>>): (r: seq<BidView>)
    ensures description == "" || |bids| == 0 ==> r == Plain(bids)
    ensures description != "" && |bids| > 0 ==> r == ApplyRanking(bids, ranking)
  {
    if description != "" && |bids| > 0 then ApplyRanking(bids, ranking) else Plain(bids)
  }

  predicate IsAccepted(v: BidView) {
    v.base.Some? && v.base.value.status == "accepted"
  }

  /** `bids.find(bid => bid.status === "accepted")`, as the id it records. */
  function AcceptedId(list: seq<BidView>): (r: Option<int>)
    ensures r.None? <==> forall i :: 0 <= i < |list| ==> !IsAccepted(list[i])
    ensures r.Some? ==> exists k :: 0 <= k < |list| && IsAccepted(list[k]) && ViewId(list[k]) == r &&
                                    forall j :: 0 <= j < k ==> !IsAccepted(list[j])
  {
    if |list| == 0 then None
    else if IsAccepted(list[0]) then ViewId(list[0])
    else
      var r := AcceptedId(list[1..]);
      assert forall i :: 1 <= i < |list| ==> list[i] == list[1..][i - 1];
      if r.Some? then
        var k :| 0 <= k < |list[1..]| && IsAccepted(list[1..][k]) && ViewId(list[1..][k]) == r &&
                 forall j :: 0 <= j < k ==> !IsAccepted(list[1..][j]);
        assert list[k + 1] == list[1..][k];
        r
      else r
  }

  /** The action a card offers. */
  datatype Action = Completed | MarkComplete | OtherAccepted | Accept

  /** `getButtonForBid`: the checks in their priority order. `acceptedId` is
      `None` while nothing is accepted (`null`), `itemId` when the card has no
      bid (`undefined`); the two never compare equal. */
  function Button(jobStatus: Option<string>, acceptedId: Option<int>, itemId: Option<int>): (a: Action)
    ensures a == Completed <==> jobStatus == Some("completed")
    ensures a == MarkComplete <==> jobStatus != Some("completed") && acceptedId.Some? && acceptedId == itemId
    ensures a == OtherAccepted <==>
              jobStatus != Some("completed") && TruthyInt(acceptedId) && acceptedId != itemId
    ensures a == Accept <==>
              jobStatus != Some("completed") && !(acceptedId.Some? && acceptedId == itemId) && !TruthyInt(acceptedId)
  {
    if jobStatus == Some("completed") then Completed
    else if acceptedId.Some? && acceptedId == itemId then MarkComplete
    else if TruthyInt(acceptedId) then OtherAccepted
    else Accept
  }

  /** What the screen keeps: the cards, the accepted bid id and the job status. */
  datatype Screen = Screen(cards: seq<BidView>, acceptedId: Option<int>, jobStatus: Option<string>)

  /** `fetchBids`: `fetched` is the bid request's answer (`None` on failure,
      which changes nothing); `jobStatus` is the job-status request's answer,
      which is only asked for when a bid is accepted. */
  function Fetch(sc: Screen, fetched: Option<seq<Bid>>, description: string,
                 ranking: Option<seq<RankedTech>>, jobStatus: Option<string>): (r: Screen)
    ensures fetched.None? ==> r == sc
    ensures fetched.Some? ==> r.cards == Displayed(fetched.value, description, ranking)
    ensures fetched.Some? && AcceptedId(r.cards).Some? ==>
              r.acceptedId == AcceptedId(r.cards) && (jobStatus.Some? ==> r.jobStatus == jobStatus)
    ensures fetched.Some? && AcceptedId(r.cards).None? ==>
              r.acceptedId == sc.acceptedId && r.jobStatus == sc.jobStatus
  {
    match fetched
    case None => sc
    case Some(bids) =>
      var cards := Displayed(bids, description, ranking);
      var accepted := AcceptedId(cards);
      if accepted.None? then sc.(cards := cards)
      else sc.(cards := cards, acceptedId := accepted,
               jobStatus := if jobStatus.Some? then jobStatus else sc.jobStatus)
  }

  /** `approveBid` after the job was started: this bid becomes the accepted one. */
  function Approve(sc: Screen, bid: Bid, started: bool): (r: Screen)
    ensures !started ==> r == sc
    ensures started ==> r.cards == sc.cards && r.acceptedId == Some(bid.id) && r.jobStatus == Some("in_progress")
  {
    if started then sc.(acceptedId := Some(bid.id), jobStatus := Some("in_progress")) else sc
  }

  /** Once a bid is approved, its card offers completion and every other card
      with a bid says another bid was accepted. */
  lemma ApprovedButtons(sc: Screen, bid: Bid, v: BidView)
    requires bid.id != 0
    ensures var after := Approve(sc, bid, true);
            && (ViewId(v) == Some(bid.id) ==> Button(after.jobStatus, after.acceptedId, ViewId(v)) == MarkComplete)
            && (ViewId(v) != Some(bid.id) ==> Button(after.jobStatus, after.acceptedId, ViewId(v)) == OtherAccepted)
  {
  }

  /** With unique ids on the cards, at most one card offers completion. */
  lemma AtMostOneMarkComplete(cards: seq<BidView>, jobStatus: Option<string>, acceptedId: Option<int>, i: nat, j: nat)
    requires i < j < |cards|
    requires forall p, q :: 0 <= p < q < |cards| && cards[p].base.Some? && cards[q].base.Some? ==>
               ViewId(cards[p]) != ViewId(cards[q])
    ensures !(Button(jobStatus, acceptedId, ViewId(cards[i])) == MarkComplete &&
              Button(jobStatus, acceptedId, ViewId(cards[j])) == MarkComplete)
  {
  }
}

=== FILE: channel.dfy ===
/** The socket server of the chat: room membership, and the `joinRoom`,
    `leaveRoom`, `sendMessage` and `typing` handlers. Each handler is a pure
    step from one server state to the next, together with the events it
    emits, in emission order. */
module Channel {
  import opened Common
  import opened MessageStore
  import RoomResolver

  /** A live socket connection. */
  type Conn = nat

  /** Room id to the connections joined to it. Socket.IO drops a room when
      its last member leaves, so no room in the map is empty. */
  type Rooms = map<string, set<Conn>>

  datatype Server = Server(store: Store, rooms: Rooms)

  /** Events the server emits to clients. */
  datatype Event =
    | RoomJoined(roomId: string)
    | ReceiveMessage(message: ChatMessage)
    | MessageSent(messageId: nat, messageType: string)
    | MessageError(error: string)
    | UserTyping(senderId: string, isTyping: bool)

  /** One emission: an event and the connections it reaches. */
  datatype Emit = Emit(targets: set<Conn>, event: Event)

  datatype Step = Step(server: Server, emits: seq<Emit>)

  /** The `sendMessage` payload as the server destructures it. `None` ids
      stand for missing or `NaN` values, and a missing `message` is "". */
  datatype SendPayload = SendPayload(
    senderId: Option<int>,
    receiverId: Option<int>,
    message: string,
    messageType: Option<string>,
    locationData: Option<Location>)

  ghost predicate NoEmptyRoom(rooms: Rooms) {
    forall r :: r in rooms ==> rooms[r] != {}
  }

  function Members(rooms: Rooms, roomId: string): set<Conn>
  {
    if roomId in rooms then rooms[roomId] else {}
  }

  /** `joinRoom`: add the connection and confirm to it alone. */
  function JoinRoom(sv: Server, c: Conn, roomId: string): (r: Step)
    ensures Members(r.server.rooms, roomId) == Members(sv.rooms, roomId) + {c}
    ensures forall other :: other != roomId ==> Members(r.server.rooms, other) == Members(sv.rooms, other)
    ensures NoEmptyRoom(sv.rooms) ==> NoEmptyRoom(r.server.rooms)
    ensures r.server.store == sv.store
    ensures r.emits == [Emit({c}, RoomJoined(roomId))]
  {
    Step(sv.(rooms := sv.rooms[roomId := Members(sv.rooms, roomId) + {c}]),
         [Emit({c}, RoomJoined(roomId))])
  }

  /** `leaveRoom`: remove the connection; an emptied room disappears. Nothing is emitted. */
  function LeaveRoom(sv: Server, c: Conn, roomId: string): (r: Step)
    ensures Members(r.server.rooms, roomId) == Members(sv.rooms, roomId) - {c}
    ensures forall other :: other != roomId ==> Members(r.server.rooms, other) == Members(sv.rooms, other)
    ensures NoEmptyRoom(sv.rooms) ==> NoEmptyRoom(r.server.rooms)
    ensures r.server.store == sv.store && r.emits == []
  {
    var left := Members(sv.rooms, roomId) - {c};
    var rooms := if left == {} then sv.rooms - {roomId} else sv.rooms[roomId := left];
    Step(sv.(rooms := rooms), [])
  }

  /** Socket.IO's own clean-up on disconnect: the connection leaves every room. */
  function Disconnect(sv: Server, c: Conn): (r: Step)
    ensures forall room :: Members(r.server.rooms, room) == Members(sv.rooms, room) - {c}
    ensures NoEmptyRoom(r.server.rooms)
    ensures r.server.store == sv.store && r.emits == []
  {
    var rooms := map room | room in sv.rooms && sv.rooms[room] - {c} != {} :: sv.rooms[room] - {c};
    Step(sv.(rooms := rooms), [])
  }

  /** `messageType || 'text'`, after the destructuring default of `'text'`. */
  function StoredKind(messageType: Option<string>): (k: string)
    ensures |k| > 0
    ensures messageType.Some? && |messageType.value| > 0 ==> k == messageType.value
  {
    match messageType
    case None => "text"
    case Some(t) => if t == "" then "text" else t
  }

  /** The type echoed in the `messageSent` acknowledgement: the destructured
      value itself, `'text'` only when the field was missing. */
  function AckKind(messageType: Option<string>): string
  {
    match messageType
    case None => "text"
    case Some(t) => t
  }

  /** The location branch of the handler: a `'location'` type with a truthy `locationData`. */
  predicate IsLocationSend(p: SendPayload) {
    p.messageType == Some("location") && p.locationData.Some?
  }

  predicate MissingFields(p: SendPayload) {
    !TruthyInt(p.senderId) || !TruthyInt(p.receiverId) || !TruthyText(p.message)
  }

  /** The location check is truthiness only: a latitude or longitude of 0 fails it. */
  predicate BadLocation(p: SendPayload) {
    IsLocationSend(p) &&
    (!TruthyReal(p.locationData.value.latitude) || !TruthyReal(p.locationData.value.longitude))
  }

  /** The room a send is broadcast to. */
  function SendRoom(p: SendPayload): string
    requires p.senderId.Some? && p.receiverId.Some?
  {
    RoomResolver.RoomOf(p.senderId.value, p.receiverId.value)
  }

  /** `sendMessage`: validate, insert, broadcast the stored record to the room
      (sender included), then acknowledge the sender. `dbOk` is whether the
      insert succeeds; `now` is the server clock. */
  function SendMessage(sv: Server, c: Conn, p: SendPayload, now: int, dbOk: bool): (r: Step)
    ensures MissingFields(p) ==>
              r == Step(sv, [Emit({c}, MessageError("Missing required fields"))])
    ensures !MissingFields(p) && BadLocation(p) ==>
              r == Step(sv, [Emit({c}, MessageError("Invalid location data"))])
    ensures !MissingFields(p) && !BadLocation(p) && !dbOk ==>
              r == Step(sv, [Emit({c}, MessageError("Failed to save message"))])
    ensures !MissingFields(p) && !BadLocation(p) && dbOk ==>
              && r.server.rooms == sv.rooms
              && |r.server.store.rows| == |sv.store.rows| + 1
              && r.server.store.rows[..|sv.store.rows|] == sv.store.rows
              && var row := r.server.store.rows[|sv.store.rows|];
              && row.id == sv.store.nextId && row.createdAt == now
              && row.senderId == p.senderId.value && row.receiverId == p.receiverId.value
              && row.body == p.message && row.kind == StoredKind(p.messageType) && !row.isRead
              && row.location == (if IsLocationSend(p) then p.locationData else None)
              && r.emits == [Emit(Members(sv.rooms, SendRoom(p)), ReceiveMessage(ToWire(row))),
                             Emit({c}, MessageSent(row.id, AckKind(p.messageType)))]
  {
    if MissingFields(p) then
      Step(sv, [Emit({c}, MessageError("Missing required fields"))])
    else if BadLocation(p) then
      Step(sv, [Emit({c}, MessageError("Invalid location data"))])
    else if !dbOk then
      Step(sv, [Emit({c}, MessageError("Failed to save message"))])
    else
      var location := if IsLocationSend(p) then p.locationData else None;
      var (store, row) := Insert(sv.store, p.senderId.value, p.receiverId.value, p.message,
                                 StoredKind(p.messageType), location, now);
      var broadcast := ChatMessage(Some(row.id), p.senderId.value, p.receiverId.value, p.message,
                                   StoredKind(p.messageType), location, row.createdAt, Some(false));
      Step(Server(store, sv.rooms),
           [Emit(Members(sv.rooms, SendRoom(p)), ReceiveMessage(broadcast)),
            Emit({c}, MessageSent(row.id, AckKind(p.messageType)))])
  }

  /** `typing`: relayed to the room minus the sender; nothing is stored. */
  function Typing(sv: Server, c: Conn, senderId: string, receiverId: string, isTyping: bool): (r: Step)
    ensures r.server == sv
    ensures |r.emits| == 1 && c !in r.emits[0].targets
    ensures forall d :: d != c ==>
              (d in r.emits[0].targets <==> d in Members(sv.rooms, RoomResolver.RoomId(senderId, receiverId)))
    ensures r.emits[0].event == UserTyping(senderId, isTyping)
  {
    Step(sv, [Emit(Members(sv.rooms, RoomResolver.RoomId(senderId, receiverId)) - {c},
                   UserTyping(senderId, isTyping))])
  }

  /** Every event a step emits, with the connections it reaches. */
  predicate Delivers(s: Step, d: Conn, e: Event) {
    exists k :: 0 <= k < |s.emits| && d in s.emits[k].targets && s.emits[k].event == e
  }

  /** A rejected send reaches only the sender, with one error event, and leaves
      the table and the rooms as they were. */
  lemma RejectedSendIsPrivate(sv: Server, c: Conn, p: SendPayload, now: int, dbOk: bool, d: Conn, e: Event)
    requires MissingFields(p) || BadLocation(p) || !dbOk
    requires Delivers(SendMessage(sv, c, p, now, dbOk), d, e)
    ensures d == c && e.MessageError?
    ensures SendMessage(sv, c, p, now, dbOk).server == sv
  {
  }

  /** A stored message reaches exactly the connections joined to its room; a
      connection joined only to other rooms never sees it. */
  lemma BroadcastIsolated(sv: Server, c: Conn, p: SendPayload, now: int, d: Conn)
    requires !MissingFields(p) && !BadLocation(p)
    ensures var s := SendMessage(sv, c, p, now, true);
            (exists m :: Delivers(s, d, ReceiveMessage(m))) <==> d in Members(sv.rooms, SendRoom(p))
  {
    var s := SendMessage(sv, c, p, now, true);
    var row := s.server.store.rows[|sv.store.rows|];
    if d in Members(sv.rooms, SendRoom(p)) {
      assert d in s.emits[0].targets && s.emits[0].event == ReceiveMessage(ToWire(row));
    }
  }

  /** The live copy equals what a later history fetch returns for the same
      id, and the acknowledgement carries that id. */
  lemma BroadcastMatchesHistory(sv: Server, c: Conn, p: SendPayload, now: int)
    requires !MissingFields(p) && !BadLocation(p)
    ensures var s := SendMessage(sv, c, p, now, true);
            var m := s.emits[0].event.message;
            && m in History(s.server.store, p.senderId.value, p.receiverId.value)
            && m.id == Some(s.emits[1].event.messageId)
            && m.isRead == Some(false)
  {
    var s := SendMessage(sv, c, p, now, true);
    var row := s.server.store.rows[|sv.store.rows|];
    assert row in s.server.store.rows;
    assert InPair(row, p.senderId.value, p.receiverId.value);
  }

  /** Typing never reaches the typist and never touches the message table. */
  lemma TypingNotEchoed(sv: Server, c: Conn, a: string, b: string, t: bool, e: Event)
    ensures !Delivers(Typing(sv, c, a, b, t), c, e)
    ensures Typing(sv, c, a, b, t).server.store == sv.store
  {
  }

  /** A location send whose payload has no `locationData` takes the text
      branch but keeps the type `'location'`: the history shows it, the
      location history does not. */
  lemma LocationWithoutData(sv: Server, c: Conn, p: SendPayload, now: int)
    requires !MissingFields(p) && p.messageType == Some("location") && p.locationData.None?
    ensures var s := SendMessage(sv, c, p, now, true);
            var row := s.server.store.rows[|sv.store.rows|];
            && row.kind == "location" && row.location.None?
            && ToWire(row) in History(s.server.store, p.senderId.value, p.receiverId.value)
            && ToLocationWire(row) !in LocationHistory(s.server.store, p.senderId.value, p.receiverId.value)
  {
    var s := SendMessage(sv, c, p, now, true);
    var st := s.server.store;
    var row := st.rows[|sv.store.rows|];
    assert row in st.rows;
    var a, b := p.senderId.value, p.receiverId.value;
  }
}

=== FILE: chatclient.dfy ===
/** The chat screen's side of the protocol: the local message list, the
    optimistic append on send, the duplicate check on `receiveMessage`, the
    typing flag, and the history load that replaces the list. */
module ChatClient {
  import opened Common
  import opened Text
  import opened MessageStore
  import RoomResolver
  import Channel

  /** What the screen holds. `userId` and `peerId` are the screen's route
      parameters (the own id and the other participant's id). */
  datatype Client = Client(
    userId: int,
    peerId: int,
    chat: seq<ChatMessage>,
    input: string,
    connected: bool,
    hasSocket: bool,
    peerTyping: bool)

  /** What the screen sends: socket events and the mark-as-read request. */
  datatype Outgoing =
    | JoinRoom(roomId: string)
    | LeaveRoom(roomId: string)
    | SendMessage(message: ChatMessage)
    | TypingEvent(senderId: string, receiverId: string, isTyping: bool)
    | MarkReadRequest(userId: int, peerId: int)

  datatype ClientStep = ClientStep(client: Client, out: seq<Outgoing>)

  /** Tolerance of the fallback duplicate check, in milliseconds. */
  const DuplicateWindow: int := 1000

  function Abs(x: int): nat { if x < 0 then -x else x }

  /** `getRoomId(userId, technicianId)` on the screen. */
  function ScreenRoom(cl: Client): string
  {
    RoomResolver.RoomOf(cl.userId, cl.peerId)
  }

  /** The test inside `prevChat.some(...)`: the same id, or the same sender and
      receiver with timestamps less than one second apart. */
  predicate SameMessage(held: ChatMessage, incoming: ChatMessage) {
    held.id == incoming.id ||
    (held.senderId == incoming.senderId && held.receiverId == incoming.receiverId &&
     Abs(held.timestamp - incoming.timestamp) < DuplicateWindow)
  }

  predicate AlreadyHeld(chat: seq<ChatMessage>, incoming: ChatMessage) {
    exists i :: 0 <= i < |chat| && SameMessage(chat[i], incoming)
  }

  /** `receiveMessage`: append the incoming message unless it is already held. */
  function Receive(chat: seq<ChatMessage>, incoming: ChatMessage): (r: seq<ChatMessage>)
    ensures |chat| <= |r| <= |chat| + 1
    ensures r[..|chat|] == chat
    ensures |r| == |chat| + 1 <==> !AlreadyHeld(chat, incoming)
    ensures |r| == |chat| + 1 ==> r[|chat|] == incoming
  {
    if AlreadyHeld(chat, incoming) then chat else chat + [incoming]
  }

  function OnReceive(cl: Client, incoming: ChatMessage): Client
  {
    cl.(chat := Receive(cl.chat, incoming))
  }

  /** Receiving the same broadcast twice changes the list at most once. */
  lemma ReceiveIdempotent(chat: seq<ChatMessage>, incoming: ChatMessage)
    ensures Receive(Receive(chat, incoming), incoming) == Receive(chat, incoming)
  {
    var r := Receive(chat, incoming);
    if !AlreadyHeld(chat, incoming) {
      assert SameMessage(r[|chat|], incoming);
    }
  }

  /** Sending a text and receiving its own broadcast within one second leaves
      one entry: the local copy, which has no id. */
  lemma OptimisticEchoKeepsLocalCopy(cl: Client, now: int, echo: ChatMessage)
    requires Trim(cl.input) != "" && cl.connected && cl.hasSocket
    requires echo.senderId == cl.userId && echo.receiverId == cl.peerId
    requires Abs(echo.timestamp - now) < DuplicateWindow
    ensures var sent := SendText(cl, now).client;
            && Receive(sent.chat, echo) == sent.chat
            && |sent.chat| == |cl.chat| + 1
            && sent.chat[|cl.chat|].id.None?
  {
    var sent := SendText(cl, now).client;
    assert SameMessage(sent.chat[|cl.chat|], echo);
  }

  /** The fallback also swallows a genuinely new message: a second message
      from the same sender, with its own id, arriving within one second of a
      held one is not shown. */
  lemma NewMessageWithinWindowDropped(held: ChatMessage, incoming: ChatMessage)
    requires held.id.Some? && incoming.id.Some? && held.id != incoming.id
    requires held.senderId == incoming.senderId && held.receiverId == incoming.receiverId
    requires Abs(held.timestamp - incoming.timestamp) < DuplicateWindow
    ensures Receive([held], incoming) == [held]
    ensures incoming !in Receive([held], incoming)
  {
    assert SameMessage([held][0], incoming);
  }

  /** The typing flag sent with `handleTyping`: only while connected with a socket. */
  function TypingOut(cl: Client, typing: bool): seq<Outgoing>
  {
    if cl.hasSocket && cl.connected
    then [TypingEvent(IntToDecimal(cl.userId), IntToDecimal(cl.peerId), typing)]
    else []
  }

  /** `onMessageInputChange`: keep the text and announce typing. The timer
      that announces the stop a second later is not modelled. */
  function OnInputChange(cl: Client, text: string): (r: ClientStep)
    ensures r.client == cl.(input := text)
    ensures |r.out| <= 1
    ensures |r.out| == 1 <==> cl.connected && cl.hasSocket
    ensures |r.out| == 1 ==> r.out[0] == TypingEvent(IntToDecimal(cl.userId), IntToDecimal(cl.peerId), true)
  {
    ClientStep(cl.(input := text), TypingOut(cl, true))
  }

  /** `sendMessage` on the screen, with the device clock at `now`. */
  function SendText(cl: Client, now: int): (r: ClientStep)
    ensures Trim(cl.input) == "" || !cl.connected || !cl.hasSocket ==> r == ClientStep(cl, [])
    ensures Trim(cl.input) != "" && cl.connected && cl.hasSocket ==>
              && |r.client.chat| == |cl.chat| + 1
              && r.client.chat[..|cl.chat|] == cl.chat
              && var m := r.client.chat[|cl.chat|];
              && m.body == Trim(cl.input) && m.kind == "text" && m.id.None? && m.location.None?
              && m.senderId == cl.userId && m.receiverId == cl.peerId && m.timestamp == now
              && r.client.input == ""
              && r.out == [SendMessage(m), TypingEvent(IntToDecimal(cl.userId), IntToDecimal(cl.peerId), false)]
  {
    var body := Trim(cl.input);
    if body == "" || !cl.connected || !cl.hasSocket then ClientStep(cl, [])
    else
      var m := ChatMessage(None, cl.userId, cl.peerId, body, "text", None, now, None);
      ClientStep(cl.(chat := cl.chat + [m], input := ""), [SendMessage(m)] + TypingOut(cl, false))
  }

  /** The pin and space in front of a shared address. */
  const LocationPrefix: string := "\U{1F4CD} "

  /** `sendLocationMessage`, given what the device returned (`None` when the
      position could not be read). The local append happens even without a
      socket; the emit does not. */
  function SendLocation(cl: Client, position: Option<Location>, now: int): (r: ClientStep)
    ensures !cl.connected || position.None? ==> r == ClientStep(cl, [])
    ensures cl.connected && position.Some? ==>
              && |r.client.chat| == |cl.chat| + 1
              && r.client.chat[..|cl.chat|] == cl.chat
              && var m := r.client.chat[|cl.chat|];
              && m.kind == "location" && m.location == position && m.id.None?
              && m.body == LocationPrefix + position.value.address
              && m.senderId == cl.userId && m.receiverId == cl.peerId && m.timestamp == now
              && r.out == (if cl.hasSocket then [SendMessage(m)] else [])
  {
    if !cl.connected || position.None? then ClientStep(cl, [])
    else
      var m := ChatMessage(None, cl.userId, cl.peerId, LocationPrefix + position.value.address,
                           "location", position, now, None);
      ClientStep(cl.(chat := cl.chat + [m]), if cl.hasSocket then [SendMessage(m)] else [])
  }

  /** `userTyping`: the flag follows events from anyone but the screen's own user. */
  function OnUserTyping(cl: Client, senderId: string, isTyping: bool): (r: Client)
    ensures senderId == IntToDecimal(cl.userId) ==> r == cl
    ensures senderId != IntToDecimal(cl.userId) ==> r == cl.(peerTyping := isTyping)
  {
    if senderId != IntToDecimal(cl.userId) then cl.(peerTyping := isTyping) else cl
  }

  /** Typing on one screen raises the indicator on the other screen of the
      conversation, while the sender's own screen ignores its own event. */
  lemma TypingReachesPeerOnly(a: Client, b: Client, text: string)
    requires a.userId == b.peerId && a.peerId == b.userId && a.userId != b.userId
    requires a.userId >= 0 && b.userId >= 0
    requires a.connected && a.hasSocket
    ensures var e := OnInputChange(a, text).out[0];
            && OnUserTyping(b, e.senderId, e.isTyping) == b.(peerTyping := true)
            && OnUserTyping(a, e.senderId, e.isTyping) == a
  {
    if NatToDecimal(a.userId) == NatToDecimal(b.userId) {
      RoomResolver.DecimalInjective(a.userId, b.userId);
    }
  }

  /** `loadPreviousMessages`: a successful fetch replaces the whole list and
      asks the server to mark the counterpart's messages read; a failed one
      changes nothing. */
  function LoadHistory(cl: Client, fetched: Option<seq<ChatMessage>>): (r: ClientStep)
    ensures fetched.Some? ==>
              r.client == cl.(chat := fetched.value) && r.out == [MarkReadRequest(cl.userId, cl.peerId)]
    ensures fetched.None? ==> r == ClientStep(cl, [])
  {
    match fetched
    case Some(list) => ClientStep(cl.(chat := list), [MarkReadRequest(cl.userId, cl.peerId)])
    case None => ClientStep(cl, [])
  }

  /** `connect`: mark connected and join the conversation's room. */
  function OnConnect(cl: Client): (r: ClientStep)
    ensures r.client.connected && r.out == [JoinRoom(ScreenRoom(cl))]
  {
    ClientStep(cl.(connected := true), [JoinRoom(ScreenRoom(cl))])
  }

  /** Screen teardown: leave the same room and drop the socket. */
  function Teardown(cl: Client): (r: ClientStep)
    ensures !r.client.hasSocket
    ensures r.out == if cl.hasSocket then [LeaveRoom(ScreenRoom(cl))] else []
  {
    ClientStep(cl.(hasSocket := false), if cl.hasSocket then [LeaveRoom(ScreenRoom(cl))] else [])
  }

  /** The two screens of a conversation (each with the other's id as peer)
      join one room, and it is the room the server broadcasts their messages to. */
  lemma BothScreensShareRoom(a: Client, b: Client)
    requires a.userId == b.peerId && a.peerId == b.userId
    ensures ScreenRoom(a) == ScreenRoom(b)
    ensures forall p: Channel.SendPayload ::
              p.senderId == Some(a.userId) && p.receiverId == Some(a.peerId) ==>
                Channel.SendRoom(p) == ScreenRoom(a) && Channel.SendRoom(p) == ScreenRoom(b)
    ensures forall p: Channel.SendPayload ::
              p.senderId == Some(b.userId) && p.receiverId == Some(b.peerId) ==>
                Channel.SendRoom(p) == ScreenRoom(a) && Channel.SendRoom(p) == ScreenRoom(b)
  {
    RoomResolver.RoomOfCommutative(a.userId, a.peerId);
  }
}

=== FILE: chatscenario.dfy ===
/** One conversation end to end: both chat screens connect and join their
    room, one side sends a text, both connections receive the same stored
    record, the receiver's unread count rises by one, and the mark-read the
    receiver's screen requests after loading the history brings it back to zero. */
module ChatScenario {
  import opened Common
  import opened MessageStore
  import opened Channel
  import RoomResolver

  lemma EndToEnd(a: int, b: int, ca: Conn, cb: Conn, body: string, now: int)
    requires a != 0 && b != 0 && body != ""
    ensures
      var sv0 := Server(Empty(), map[]);
      var sv1 := JoinRoom(sv0, ca, RoomResolver.RoomOf(a, b)).server;
      var sv2 := JoinRoom(sv1, cb, RoomResolver.RoomOf(b, a)).server;
      var s := SendMessage(sv2, ca, SendPayload(Some(a), Some(b), body, Some("text"), None), now, true);
      var m := s.emits[0].event.message;
      && Delivers(s, ca, ReceiveMessage(m))
      && Delivers(s, cb, ReceiveMessage(m))
      && m.id == Some(s.emits[1].event.messageId)
      && m in History(s.server.store, a, b)
      && UnreadCount(s.server.store, b) == 1
      && MarkRead(s.server.store, b, a).1 == 1
      && UnreadCount(MarkRead(s.server.store, b, a).0, b) == 0
  {
    var sv0 := Server(Empty(), map[]);
    var room := RoomResolver.RoomOf(a, b);
    RoomResolver.RoomOfCommutative(a, b);
    var sv1 := JoinRoom(sv0, ca, room).server;
    var sv2 := JoinRoom(sv1, cb, room).server;
    assert ca in Members(sv2.rooms, room) && cb in Members(sv2.rooms, room);
    var p := SendPayload(Some(a), Some(b), body, Some("text"), None);
    assert !MissingFields(p) && !BadLocation(p);
    var s := SendMessage(sv2, ca, p, now, true);
    BroadcastMatchesHistory(sv2, ca, p, now);
    var row := s.server.store.rows[0];
    assert s.server.store.rows == [row];
    InsertRaisesUnread(sv2.store, a, b, body, "text", None, now, b);
    assert s.server.store == Insert(sv2.store, a, b, body, "text", None, now).0;
    assert Count(s.server.store.rows, UnreadFromSel(b, a)) == 1 by {
      assert UnreadFrom(row, b, a);
      assert s.server.store.rows == [] + [row];
    }
    MarkReadDropsUnreadCount(s.server.store, b, a);
  }
}

=== FILE: common.dfy ===
/** Shared vocabulary: optional values, JavaScript truthiness of the values the
    application inspects, and order-preserving filters over sequences. */
module Common {

  /** A value that may be absent (`undefined` or `null` in the application). */
  datatype Option<+T> = None | Some(value: T)

  /** Truthiness of a numeric field: absent, `NaN` and `0` are falsy. */
  predicate TruthyInt(x: Option<int>) {
    x.Some? && x.value != 0
  }

  /** Truthiness of a floating-point field such as a latitude. */
  predicate TruthyReal(x: Option<real>) {
    x.Some? && x.value != 0.0
  }

  /** Truthiness of a text field: absent and the empty string are falsy. */
  predicate TruthyText(s: string) {
    |s| > 0
  }

  /** The elements of `s` that satisfy `keep`, in their original order
      (`Array.prototype.filter`, or a SQL `WHERE` over a table scan). */
  function Filter<T(!new)>(s: seq<T>, keep: T -> bool): (r: seq<T>)
    ensures |r| <= |s|
    ensures forall x :: x in r <==> x in s && keep(x)
    ensures multiset(r) <= multiset(s)
  {
    if |s| == 0 then []
    else
      assert s == [s[0]] + s[1..];
      if keep(s[0]) then [s[0]] + Filter(s[1..], keep) else Filter(s[1..], keep)
  }

  /** `a` is obtained from `b` by deleting elements, without reordering. */
  predicate IsSubsequence<T(==)>(a: seq<T>, b: seq<T>)
    decreases |b|
  {
    |a| == 0 ||
    (|b| > 0 &&
     ((a[0] == b[0] && IsSubsequence(a[1..], b[1..])) || IsSubsequence(a, b[1..])))
  }

  /** A filter keeps the relative order of the elements it keeps. */
  lemma {:induction false} FilterIsSubsequence<T(!new)>(s: seq<T>, keep: T -> bool)
    ensures IsSubsequence(Filter(s, keep), s)
  {
    if |s| > 0 {
      FilterIsSubsequence(s[1..], keep);
      var rest := Filter(s[1..], keep);
      if keep(s[0]) {
        assert Filter(s, keep) == [s[0]] + rest;
        assert ([s[0]] + rest)[1..] == rest;
      } else {
        assert Filter(s, keep) == rest;
        if |rest| > 0 {
          assert IsSubsequence(rest, s[1..]);
        }
      }
    }
  }

  /** Filtering a concatenation filters each part. */
  lemma {:induction false} FilterAppend<T(!new)>(s: seq<T>, t: seq<T>, keep: T -> bool)
    ensures Filter(s + t, keep) == Filter(s, keep) + Filter(t, keep)
  {
    if |s| == 0 {
      assert s + t == t;
    } else {
      assert (s + t)[1..] == s[1..] + t;
      FilterAppend(s[1..], t, keep);
    }
  }

  /** Number of elements of `s` that satisfy `p` (a SQL `COUNT(*) ... WHERE`). */
  function Count<T(!new)>(s: seq<T>, p: T -> bool): (n: nat)
    ensures n <= |s|
    ensures n == |Filter(s, p)|
    ensures n == 0 <==> forall x :: x in s ==> !p(x)
  {
    if |s| == 0 then 0
    else (if p(s[0]) then 1 else 0) + Count(s[1..], p)
  }

  /** Counting over a concatenation adds the counts of the parts. */
  lemma {:induction false} CountAppend<T(!new)>(s: seq<T>, t: seq<T>, p: T -> bool)
    ensures Count(s + t, p) == Count(s, p) + Count(t, p)
  {
    FilterAppend(s, t, p);
  }

  /** The first `n` elements, or all of them when there are fewer (SQL `LIMIT n`). */
  function Take<T>(s: seq<T>, n: nat): (r: seq<T>)
    ensures |r| == if |s| < n then |s| else n
    ensures r == s[..|r|]
  {
    if |s| <= n then s else s[..n]
  }

  /** One segment of an Express route path: a literal, or a `:param` that
      matches any non-empty segment. */
  datatype Pattern = Literal(text: string) | Param(name: string)

  predicate Matches(p: Pattern, segment: string) {
    match p
    case Literal(text) => segment == text
    case Param(_) => segment != ""
  }

  /** A route matches a path with the same number of segments, each matched. */
  predicate PathMatches(route: seq<Pattern>, path: seq<string>) {
    |route| == |path| && forall i :: 0 <= i < |path| ==> Matches(route[i], path[i])
  }

  /** Express dispatches to the first declared route that matches. */
  function Dispatch<H(==)>(routes: seq<(seq<Pattern>, H)>, path: seq<string>): (r: Option<H>)
    ensures r.Some? ==> exists k :: 0 <= k < |routes| && PathMatches(routes[k].0, path) && routes[k].1 == r.value &&
                                    forall j :: 0 <= j < k ==> !PathMatches(routes[j].0, path)
    ensures r.None? <==> forall k :: 0 <= k < |routes| ==> !PathMatches(routes[k].0, path)
  {
    if |routes| == 0 then None
    else if PathMatches(routes[0].0, path) then Some(routes[0].1)
    else
      var r := Dispatch(routes[1..], path);
      assert forall k :: 1 <= k < |routes| ==> routes[k] == routes[1..][k - 1];
      if r.Some? then
        var k :| 0 <= k < |routes[1..]| && PathMatches(routes[1..][k].0, path) && routes[1..][k].1 == r.value &&
                 forall j :: 0 <= j < k ==> !PathMatches(routes[1..][j].0, path);
        assert routes[k + 1] == routes[1..][k];
        r
      else r
  }
}

=== FILE: dashboard.dfy ===
/** The technician's dashboard: which fetched requests it lists, which bids
    are the technician's own, the "already bid" check, the bid form's checks
    and payload, the image URL, and the list each tab shows. */
module TechnicianDashboard {
  import opened Common
  import opened Text

  /** A request as fetched; `""` stands for a missing text field. */
  datatype RawIssue = RawIssue(id: Option<int>, issue: string, problem: string, userId: Option<int>, image: string)

  /** A bid as fetched for one request. */
  datatype DashBid = DashBid(id: int, requestId: int, technicianId: int, message: string)

  /** A bid of the technician, tagged with the request it was made on. */
  datatype MyBid = MyBid(bid: DashBid, issue: RawIssue)

  /** An accepted job, as the job list returns it. */
  datatype Job = Job(id: int, customerId: int, status: string)

  /** `issue.id && (issue.issue || issue.problem) && issue.user_id`. */
  predicate ValidIssue(x: RawIssue) {
    TruthyInt(x.id) && (x.issue != "" || x.problem != "") && TruthyInt(x.userId)
  }

  function ValidSel(): RawIssue -> bool {
    (x: RawIssue) => ValidIssue(x)
  }

  /** `fetchAllIssues`: `None` is a failed request or an answer that is not
      an array, and shows no request. */
  function AvailableIssues(response: Option<seq<RawIssue>>): (r: seq<RawIssue>)
    ensures response.None? ==> r == []
    ensures response.Some? ==> IsSubsequence(r, response.value)
    ensures response.Some? ==> forall x :: x in r <==> x in response.value && ValidIssue(x)
  {
    match response
    case None => []
    case Some(list) =>
      FilterIsSubsequence(list, ValidSel());
      Filter(list, ValidSel())
  }

  function Tag(bids: seq<DashBid>, issue: RawIssue): (r: seq<MyBid>)
    ensures |r| == |bids|
    ensures forall k :: 0 <= k < |bids| ==> r[k] == MyBid(bids[k], issue)
    ensures forall m :: m in r <==> m.bid in bids && m.issue == issue
  {
    seq(|bids|, k requires 0 <= k < |bids| => MyBid(bids[k], issue))
  }

  function ByTechnician(technicianId: int): DashBid -> bool {
    (b: DashBid) => b.technicianId == technicianId
  }

  /** The technician's bids on the listed requests, flattened in request
      order; `fetched` pairs each listed request with its fetched bids (a
      failed fetch contributes none). */
  function CollectMyBids(fetched: seq<(RawIssue, seq<DashBid>)>, technicianId: int): (r: seq<MyBid>)
    ensures forall m :: m in r <==>
              exists k :: 0 <= k < |fetched| && m.issue == fetched[k].0 &&
                          m.bid in fetched[k].1 && m.bid.technicianId == technicianId
  {
    if |fetched| == 0 then []
    else
      var head := Tag(Filter(fetched[0].1, ByTechnician(technicianId)), fetched[0].0);
      var rest := CollectMyBids(fetched[1..], technicianId);
      assert forall k :: 1 <= k < |fetched| ==> fetched[k] == fetched[1..][k - 1];
      TagOwn(fetched[0].1, fetched[0].0, technicianId);
      head + rest
  }

  /** The tagged own bids of one request are exactly its bids by the technician. */
  lemma TagOwn(bids: seq<DashBid>, issue: RawIssue, technicianId: int)
    ensures forall m :: m in Tag(Filter(bids, ByTechnician(technicianId)), issue) <==>
                        m.issue == issue && m.bid in bids && m.bid.technicianId == technicianId
  {
    var f := Filter(bids, ByTechnician(technicianId));
    var head := Tag(f, issue);
    forall m | m in head ensures m.issue == issue && m.bid in bids && m.bid.technicianId == technicianId {
      var k :| 0 <= k < |head| && head[k] == m;
      assert f[k] in f;
    }
    forall m: MyBid | m.issue == issue && m.bid in bids && m.bid.technicianId == technicianId
      ensures m in head
    {
      var k :| 0 <= k < |f| && f[k] == m.bid;
      assert head[k] == m;
    }
  }

  /** `fetchMyBids`: nothing happens without a user id, and no request listed
      means no bids. */
  function FetchMyBids(previous: seq<MyBid>, userId: Option<int>, fetched: seq<(RawIssue, seq<DashBid>)>): (r: seq<MyBid>)
    ensures !TruthyInt(userId) ==> r == previous
    ensures TruthyInt(userId) && |fetched| == 0 ==> r == []
    ensures TruthyInt(userId) ==> forall m :: m in r ==> m.bid.technicianId == userId.value
    ensures TruthyInt(userId) ==> r == CollectMyBids(fetched, userId.value)
  {
    if !TruthyInt(userId) then previous
    else if |fetched| == 0 then []
    else CollectMyBids(fetched, userId.value)
  }

  /** `hasAlreadyBid`. */
  predicate HasAlreadyBid(myBids: seq<MyBid>, issueId: int) {
    exists k :: 0 <= k < |myBids| && myBids[k].bid.requestId == issueId
  }

  /** The technician has already bid on a request exactly when one of their
      own fetched bids names it. */
  lemma AlreadyBidIff(fetched: seq<(RawIssue, seq<DashBid>)>, technicianId: int, issueId: int)
    ensures HasAlreadyBid(CollectMyBids(fetched, technicianId), issueId) <==>
            exists k, b :: 0 <= k < |fetched| && b in fetched[k].1 &&
                           b.technicianId == technicianId && b.requestId == issueId
  {
    var mine := CollectMyBids(fetched, technicianId);
    if HasAlreadyBid(mine, issueId) {
      var j :| 0 <= j < |mine| && mine[j].bid.requestId == issueId;
      assert mine[j] in mine;
    }
    if exists k, b :: 0 <= k < |fetched| && b in fetched[k].1 &&
                      b.technicianId == technicianId && b.requestId == issueId {
      var k, b :| 0 <= k < |fetched| && b in fetched[k].1 && b.technicianId == technicianId && b.requestId == issueId;
      var m := MyBid(b, fetched[k].0);
      assert m in mine;
      var j :| 0 <= j < |mine| && mine[j] == m;
    }
  }

  /** What the bid form sends. */
  datatype BidPayload = BidPayload(requestId: int, technicianId: int, estimatedTime: string, message: string)

  /** The outcome of `sendBid`'s checks. */
  datatype BidCheck = FillAllFields | InvalidCost | MissingInformation | Send(payload: BidPayload)

  /** `sendBid`'s checks, in order. `costValid` is whether the cost parses as
      a positive number. */
  function CheckBid(message: string, cost: string, estimatedTime: string, costValid: bool,
                    selected: Option<RawIssue>, userId: Option<int>): (r: BidCheck)
    ensures r == FillAllFields <==> Trim(message) == "" || Trim(cost) == "" || Trim(estimatedTime) == ""
    ensures r.Send? ==> costValid && selected.Some? && TruthyInt(selected.value.id) && TruthyInt(userId)
    ensures r.Send? ==> r.payload == BidPayload(selected.value.id.value, userId.value,
                                                Trim(estimatedTime), Trim(message))
    ensures r.Send? ==> r.payload.message != "" && r.payload.estimatedTime != ""
    ensures r == InvalidCost <==>
              Trim(message) != "" && Trim(cost) != "" && Trim(estimatedTime) != "" && !costValid
    ensures r == MissingInformation <==>
              Trim(message) != "" && Trim(cost) != "" && Trim(estimatedTime) != "" && costValid &&
              !(selected.Some? && TruthyInt(selected.value.id) && TruthyInt(userId))
  {
    if Trim(message) == "" || Trim(cost) == "" || Trim(estimatedTime) == "" then FillAllFields
    else if !costValid then InvalidCost
    else if !(selected.Some? && TruthyInt(selected.value.id) && TruthyInt(userId)) then MissingInformation
    else Send(BidPayload(selected.value.id.value, userId.value, Trim(estimatedTime), Trim(message)))
  }

  /** Trimming the sent fields again changes nothing. */
  lemma PayloadTrimmed(message: string, cost: string, estimatedTime: string, costValid: bool,
                       selected: Option<RawIssue>, userId: Option<int>)
    requires CheckBid(message, cost, estimatedTime, costValid, selected, userId).Send?
    ensures var p := CheckBid(message, cost, estimatedTime, costValid, selected, userId).payload;
            Trim(p.message) == p.message && Trim(p.estimatedTime) == p.estimatedTime
  {
    TrimIdempotent(message);
    TrimIdempotent(estimatedTime);
  }

  const BaseUrl: string := "http://192.333.33.237:5000/api"

  /** `getImageUrl`: `null` for a missing name, otherwise the base URL with its
      first "/api" removed, then the uploads folder and the name. */
  function ImageUrl(name: string): (r: Option<string>)
    ensures name == "" <==> r.None?
    ensures r.Some? ==> r.value == ReplaceFirst(BaseUrl, "/api", "") + "/uploads/" + name
  {
    if name == "" then None else Some(ReplaceFirst(BaseUrl, "/api", "") + "/uploads/" + name)
  }

  /** The "/api" of the base URL is its last four characters and occurs nowhere earlier. */
  lemma ApiAtEnd()
    ensures IndexOf(BaseUrl, "/api") == Some(26)
  {
    assert MatchAt(BaseUrl, "/api", 26);
    forall j | 0 <= j < 26 ensures !MatchAt(BaseUrl, "/api", j) {
      assert BaseUrl[j + 1] != 'a';
      assert BaseUrl[j..j + 4][1] == BaseUrl[j + 1];
    }
    var r := IndexOf(BaseUrl, "/api");
    assert r.Some?;
    assert !(r.value < 26);
  }

  /** The server root the uploads are served from. */
  const ServerRootUrl: string := "http://192.333.33.237:5000"

  /** Image links point at the server root's uploads folder. */
  lemma ImageUrlValue(name: string)
    requires name != ""
    ensures ImageUrl(name) == Some(ServerRootUrl + "/uploads/" + name)
  {
    ServerRoot();
  }

  /** Removing the first "/api" from the base URL leaves the server root. */
  lemma ServerRoot()
    ensures ReplaceFirst(BaseUrl, "/api", "") == ServerRootUrl
  {
    ApiAtEnd();
    assert ReplaceFirst(BaseUrl, "/api", "") == BaseUrl[..26] + "" + BaseUrl[30..];
    assert BaseUrl[..26] == ServerRootUrl;
    assert BaseUrl[30..] == "";
  }

  /** The three lists the dashboard keeps. */
  datatype Dashboard = Dashboard(available: seq<RawIssue>, myBids: seq<MyBid>, acceptedJobs: seq<Job>)

  /** What a tab shows. */
  datatype TabData = IssueList(issues: seq<RawIssue>) | BidList(bids: seq<MyBid>) | JobList(jobs: seq<Job>)

  /** `getCurrentTabData`. */
  function CurrentTabData(d: Dashboard, activeTab: string): (r: TabData)
    ensures activeTab == "available" ==> r == IssueList(d.available)
    ensures activeTab == "myBids" ==> r == BidList(d.myBids)
    ensures activeTab == "acceptedJobs" ==> r == JobList(d.acceptedJobs)
    ensures activeTab !in {"available", "myBids", "acceptedJobs"} ==> r == IssueList([])
  {
    if activeTab == "available" then IssueList(d.available)
    else if activeTab == "myBids" then BidList(d.myBids)
    else if activeTab == "acceptedJobs" then JobList(d.acceptedJobs)
    else IssueList([])
  }

  /** Once the technician's bids and the open requests are fetched, the
      "available" tab lists only complete requests from the answer, and the
      "myBids" tab lists exactly the technician's own bids on the fetched
      requests, each with its request. */
  lemma TabsShowFetched(d: Dashboard, response: Option<seq<RawIssue>>, userId: Option<int>,
                        fetched: seq<(RawIssue, seq<DashBid>)>)
    requires TruthyInt(userId)
    ensures var shown := Dashboard(AvailableIssues(response), FetchMyBids(d.myBids, userId, fetched), d.acceptedJobs);
            && (forall x :: x in CurrentTabData(shown, "available").issues ==>
                  ValidIssue(x) && response.Some? && x in response.value)
            && (forall m :: m in CurrentTabData(shown, "myBids").bids <==>
                  exists k :: 0 <= k < |fetched| && m.issue == fetched[k].0 &&
                              m.bid in fetched[k].1 && m.bid.technicianId == userId.value)
  {
  }
}

=== FILE: issues.dfy ===
/** The customer's repair requests: posting, listing (per user or all),
    and the owner-scoped delete and update, over the `repair_requests`
    table, with the route table that decides which handler a listing
    request reaches. */
module Issues {
  import opened Common
  import opened Text
  import Ordering

  /** A row of `repair_requests`; `image` is the uploaded file's name. */
  datatype Issue = Issue(id: nat, userId: int, issue: string, image: Option<string>, createdAt: int)

  datatype Table = Table(rows: seq<Issue>, nextId: nat)

  ghost predicate Valid(t: Table) {
    && (forall i :: 0 <= i < |t.rows| ==> t.rows[i].id < t.nextId)
    && (forall i, j :: 0 <= i < j < |t.rows| ==> t.rows[i].id != t.rows[j].id)
  }

  datatype Reply = Reply(status: nat, message: string)

  /** `postIssue` with `addIssue`: the row gets the next id; `upload` is the
      stored file name, `None` when no file came with the request. */
  function AddIssue(t: Table, userId: int, issue: string, upload: Option<string>, now: int): (r: (Table, Issue))
    ensures r.0.rows == t.rows + [r.1]
    ensures r.1.userId == userId && r.1.issue == issue && r.1.image == upload && r.1.createdAt == now
    ensures Valid(t) ==> Valid(r.0) && forall x :: x in t.rows ==> x.id != r.1.id
  {
    var row := Issue(t.nextId, userId, issue, upload, now);
    (Table(t.rows + [row], t.nextId + 1), row)
  }

  function NegCreated(x: Issue): int { -x.createdAt }

  function OwnedBy(userId: int): Issue -> bool {
    (x: Issue) => x.userId == userId
  }

  /** The result of a listing: the rows, or the database error a `NaN` id raises. */
  datatype Listing = Rows(rows: seq<Issue>) | QueryError

  /** `getIssuesByUserId`: `'all'` lists every request, anything else lists
      the requests of `parseInt` of it, newest first. */
  function IssuesByUser(t: Table, param: string): (r: Listing)
    ensures param == "all" ==> r.Rows? && multiset(r.rows) == multiset(t.rows)
    ensures param != "all" && ParseInt(param).None? ==> r == QueryError
    ensures param != "all" && ParseInt(param).Some? ==>
              r.Rows? && forall x :: x in r.rows <==> x in t.rows && x.userId == ParseInt(param).value
    ensures r.Rows? ==> forall i, j :: 0 <= i < j < |r.rows| ==> r.rows[i].createdAt >= r.rows[j].createdAt
  {
    if param == "all" then Rows(Ordering.SortBy(t.rows, NegCreated))
    else match ParseInt(param)
      case None => QueryError
      case Some(u) => Rows(Ordering.SortBy(Filter(t.rows, OwnedBy(u)), NegCreated))
  }

  /** `getAllIssues`. */
  function AllIssues(t: Table): (r: seq<Issue>)
    ensures multiset(r) == multiset(t.rows)
  {
    Ordering.SortBy(t.rows, NegCreated)
  }

  /** The handlers the listing routes lead to. */
  datatype Handler = MyIssues | EveryIssue

  /** `GET /issues/...` routes, in declaration order. */
  const IssueRoutes: seq<(seq<Pattern>, Handler)> :=
    [([Param("user_id")], MyIssues), ([Literal("all")], EveryIssue)]

  /** `/issues/all` reaches the per-user handler, never `getAllIssues`, and
      that handler's `'all'` case answers with the same list. */
  lemma AllRouteShadowed(t: Table, segment: string)
    requires segment != ""
    ensures Dispatch(IssueRoutes, [segment]) == Some(MyIssues)
    ensures IssuesByUser(t, "all") == Rows(AllIssues(t))
  {
  }

  /** The row identified by `id` and owned by `userId`. */
  predicate Owned(x: Issue, id: int, userId: int) {
    x.id == id && x.userId == userId
  }

  function NotOwned(id: int, userId: int): Issue -> bool {
    (x: Issue) => !Owned(x, id, userId)
  }

  predicate HasOwned(rows: seq<Issue>, id: int, userId: int) {
    exists i :: 0 <= i < |rows| && Owned(rows[i], id, userId)
  }

  /** `deleteMyIssue` with `deleteIssue`: only a row matching both the id
      and the owner goes; otherwise 404 and the table is unchanged. */
  function DeleteIssue(t: Table, id: int, userId: int): (r: (Table, Reply))
    ensures !HasOwned(t.rows, id, userId) ==> r == (t, Reply(404, "Issue not found or not yours."))
    ensures HasOwned(t.rows, id, userId) ==> r.1.status == 200
    ensures forall x :: x in r.0.rows <==> x in t.rows && !Owned(x, id, userId)
    ensures IsSubsequence(r.0.rows, t.rows) && r.0.nextId == t.nextId
  {
    if !HasOwned(t.rows, id, userId) then
      FilterIsSubsequence(t.rows, NotOwned(id, userId));
      assert Filter(t.rows, NotOwned(id, userId)) == t.rows by { FilterAll(t.rows, id, userId); }
      (t, Reply(404, "Issue not found or not yours."))
    else
      FilterIsSubsequence(t.rows, NotOwned(id, userId));
      (t.(rows := Filter(t.rows, NotOwned(id, userId))), Reply(200, "Issue deleted."))
  }

  lemma {:induction false} FilterAll(rows: seq<Issue>, id: int, userId: int)
    requires !HasOwned(rows, id, userId)
    ensures Filter(rows, NotOwned(id, userId)) == rows
  {
    if |rows| > 0 {
      assert !HasOwned(rows[1..], id, userId) by {
        forall i | 0 <= i < |rows[1..]| ensures !Owned(rows[1..][i], id, userId) {
          assert rows[1..][i] == rows[i + 1];
        }
      }
      FilterAll(rows[1..], id, userId);
      assert !Owned(rows[0], id, userId);
    }
  }

  /** With unique ids, a successful delete removes exactly one row. */
  lemma DeleteRemovesOne(t: Table, id: int, userId: int)
    requires Valid(t) && HasOwned(t.rows, id, userId)
    ensures |DeleteIssue(t, id, userId).0.rows| == |t.rows| - 1
  {
    var i :| 0 <= i < |t.rows| && Owned(t.rows[i], id, userId);
    FilterRemovesOne(t.rows, i, id, userId);
  }

  /** Filtering out the one owned row of a table with unique ids shortens it by one. */
  lemma {:induction false} FilterRemovesOne(rows: seq<Issue>, i: nat, id: int, userId: int)
    requires i < |rows| && Owned(rows[i], id, userId)
    requires forall p, q :: 0 <= p < q < |rows| ==> rows[p].id != rows[q].id
    ensures |Filter(rows, NotOwned(id, userId))| == |rows| - 1
  {
    var keep := NotOwned(id, userId);
    var before, x, after := rows[..i], rows[i], rows[i + 1..];
    assert rows == before + [x] + after;
    assert !HasOwned(before, id, userId) by {
      forall j | 0 <= j < |before| ensures !Owned(before[j], id, userId) {
        assert before[j] == rows[j];
      }
    }
    assert !HasOwned(after, id, userId) by {
      forall j | 0 <= j < |after| ensures !Owned(after[j], id, userId) {
        assert after[j] == rows[i + 1 + j];
      }
    }
    FilterAll(before, id, userId);
    FilterAll(after, id, userId);
    FilterAppend(before + [x], after, keep);
    FilterAppend(before, [x], keep);
    assert Filter([x], keep) == [];
  }

  /** The new contents of a matched row: an uploaded image replaces the old
      one, no upload keeps it. */
  function Updated(x: Issue, issue: string, image: Option<string>): (y: Issue)
    ensures y.id == x.id && y.userId == x.userId && y.createdAt == x.createdAt && y.issue == issue
    ensures image.Some? && image.value != "" ==> y.image == image
    ensures !(image.Some? && image.value != "") ==> y.image == x.image
  {
    if image.Some? && image.value != "" then x.(issue := issue, image := image) else x.(issue := issue)
  }

  function UpdateRows(rows: seq<Issue>, id: int, userId: int, issue: string, image: Option<string>): (r: seq<Issue>)
    ensures |r| == |rows|
    ensures forall i :: 0 <= i < |rows| ==>
              r[i] == if Owned(rows[i], id, userId) then Updated(rows[i], issue, image) else rows[i]
    ensures forall i :: 0 <= i < |rows| ==>
              r[i].id == rows[i].id && r[i].userId == rows[i].userId && r[i].createdAt == rows[i].createdAt
    ensures forall i :: 0 <= i < |rows| && Owned(rows[i], id, userId) ==> r[i].issue == issue
  {
    if |rows| == 0 then []
    else [if Owned(rows[0], id, userId) then Updated(rows[0], issue, image) else rows[0]]
         + UpdateRows(rows[1..], id, userId, issue, image)
  }

  /** `updateMyIssue` with `updateIssue`. */
  function UpdateIssue(t: Table, id: int, userId: int, issue: string, image: Option<string>): (r: (Table, Reply))
    ensures !HasOwned(t.rows, id, userId) ==> r == (t, Reply(404, "Issue not found or not yours."))
    ensures HasOwned(t.rows, id, userId) ==> r.1.status == 200 && r.0.nextId == t.nextId
    ensures |r.0.rows| == |t.rows|
    ensures forall i :: 0 <= i < |t.rows| && !Owned(t.rows[i], id, userId) ==> r.0.rows[i] == t.rows[i]
    ensures forall i :: 0 <= i < |t.rows| && Owned(t.rows[i], id, userId) ==>
              r.0.rows[i].issue == issue &&
              r.0.rows[i].image == (if image.Some? && image.value != "" then image else t.rows[i].image)
  {
    if !HasOwned(t.rows, id, userId) then (t, Reply(404, "Issue not found or not yours."))
    else (t.(rows := UpdateRows(t.rows, id, userId, issue, image)), Reply(200, "Issue updated."))
  }

  /** Only the owner can change a request: for anybody else both delete and
      update answer 404 and leave the table as it was. */
  lemma OwnerScoped(t: Table, id: int, owner: int, other: int, issue: string, image: Option<string>)
    requires Valid(t) && HasOwned(t.rows, id, owner) && other != owner
    ensures DeleteIssue(t, id, other) == (t, Reply(404, "Issue not found or not yours."))
    ensures UpdateIssue(t, id, other, issue, image) == (t, Reply(404, "Issue not found or not yours."))
  {
    var i :| 0 <= i < |t.rows| && Owned(t.rows[i], id, owner);
  }

  /** A posted request shows up in its owner's listing, and the `'all'` listing. */
  lemma PostedIsListed(t: Table, userId: int, issue: string, upload: Option<string>, now: int)
    ensures var (t', row) := AddIssue(t, userId, issue, upload, now);
            && IssuesByUser(t', IntToDecimal(userId)).Rows?
            && row in IssuesByUser(t', IntToDecimal(userId)).rows
            && IssuesByUser(t', "all").Rows?
            && row in IssuesByUser(t', "all").rows
  {
    var (t', row) := AddIssue(t, userId, issue, upload, now);
    ParseIntOfDecimal(userId);
    assert row in t'.rows;
    assert row in multiset(IssuesByUser(t', "all").rows);
  }
}

=== FILE: messagestore.dfy ===
/** The `messages` table of the chat server and the four queries over it:
    conversation history, location history, mark-as-read and unread count.
    The table is a sequence of rows in insertion order; ids come from a
    counter, as from a serial column. */
module MessageStore {
  import opened Common
  import Ordering

  /** The `locationData` object a client attaches to a location message. */
  datatype Location = Location(
    latitude: Option<real>,
    longitude: Option<real>,
    address: string,
    accuracy: Option<real>,
    capturedAt: string)

  /** One row of the `messages` table. `location` is the stored
      `location_data` column, null for rows inserted by the text branch. */
  datatype Row = Row(
    id: nat,
    senderId: int,
    receiverId: int,
    body: string,
    kind: string,
    location: Option<Location>,
    createdAt: int,
    isRead: bool)

  datatype Store = Store(rows: seq<Row>, nextId: nat)

  /** A message as it travels to a client: the normalised shape returned by
      the history endpoints, broadcast by the socket server, and held in the
      chat screen's list. Optimistic local copies have no `id` and no `isRead`. */
  datatype ChatMessage = ChatMessage(
    id: Option<nat>,
    senderId: int,
    receiverId: int,
    body: string,
    kind: string,
    location: Option<Location>,
    timestamp: int,
    isRead: Option<bool>)

  /** Ids are below the counter and strictly increase in insertion order. */
  ghost predicate Valid(st: Store) {
    && (forall i :: 0 <= i < |st.rows| ==> st.rows[i].id < st.nextId)
    && (forall i, j :: 0 <= i < j < |st.rows| ==> st.rows[i].id < st.rows[j].id)
  }

  function Empty(): (st: Store)
    ensures Valid(st) && |st.rows| == 0
  {
    Store([], 1)
  }

  /** `INSERT ... RETURNING *`: a fresh row with the next id, unread. */
  function Insert(st: Store, senderId: int, receiverId: int, body: string, kind: string,
                  location: Option<Location>, now: int): (r: (Store, Row))
    ensures r.0.rows == st.rows + [r.1]
    ensures Valid(st) ==> Valid(r.0)
    ensures Valid(st) ==> forall old_ :: old_ in st.rows ==> old_.id < r.1.id
    ensures !r.1.isRead && r.1.createdAt == now
  {
    var row := Row(st.nextId, senderId, receiverId, body, kind, location, now, false);
    (Store(st.rows + [row], st.nextId + 1), row)
  }

  /** The row belongs to the conversation between `a` and `b`, in either direction. */
  predicate InPair(row: Row, a: int, b: int) {
    (row.senderId == a && row.receiverId == b) || (row.senderId == b && row.receiverId == a)
  }

  /** Selectors of the queries' `WHERE` clauses. */
  function Conversation(a: int, b: int): Row -> bool {
    row => InPair(row, a, b)
  }

  function TimeOf(row: Row): int { row.createdAt }

  function NegTimeOf(row: Row): int { -row.createdAt }

  /** The normalised shape of a history row. */
  function ToWire(row: Row): (m: ChatMessage)
    ensures m.id == Some(row.id) && m.isRead == Some(row.isRead)
    ensures m.senderId == row.senderId && m.receiverId == row.receiverId
    ensures m.timestamp == row.createdAt && m.location == row.location
  {
    ChatMessage(Some(row.id), row.senderId, row.receiverId, row.body, row.kind,
                row.location, row.createdAt, Some(row.isRead))
  }

  /** The normalised shape of a location-history row (the query does not select `is_read`). */
  function ToLocationWire(row: Row): (m: ChatMessage)
    ensures m.id == Some(row.id) && m.isRead.None? && m.location == row.location
    ensures m.kind == row.kind && m.timestamp == row.createdAt
  {
    ChatMessage(Some(row.id), row.senderId, row.receiverId, row.body, row.kind,
                row.location, row.createdAt, None)
  }

  function ToWires(rows: seq<Row>): (r: seq<ChatMessage>)
    ensures |r| == |rows|
    ensures forall i :: 0 <= i < |rows| ==> r[i] == ToWire(rows[i])
  {
    if |rows| == 0 then [] else [ToWire(rows[0])] + ToWires(rows[1..])
  }

  function ToLocationWires(rows: seq<Row>): (r: seq<ChatMessage>)
    ensures |r| == |rows|
    ensures forall i :: 0 <= i < |rows| ==> r[i] == ToLocationWire(rows[i])
  {
    if |rows| == 0 then [] else [ToLocationWire(rows[0])] + ToLocationWires(rows[1..])
  }

  lemma ToWiresMembers(rows: seq<Row>)
    ensures forall row :: row in rows ==> ToWire(row) in ToWires(rows)
  {
    var r := ToWires(rows);
    forall row | row in rows
      ensures ToWire(row) in r
    {
      var k :| 0 <= k < |rows| && rows[k] == row;
      assert r[k] == ToWire(row);
    }
  }

  /** Rows of the conversation in ascending `created_at`. */
  function HistoryRows(st: Store, a: int, b: int): (r: seq<Row>)
    ensures Ordering.SortedBy(r, TimeOf)
    ensures |r| == Count(st.rows, Conversation(a, b))
    ensures forall row :: row in r <==> row in st.rows && InPair(row, a, b)
    ensures forall i :: 0 <= i < |r| ==> InPair(r[i], a, b)
  {
    var f := Filter(st.rows, Conversation(a, b));
    var r := Ordering.SortBy(f, TimeOf);
    assert forall i :: 0 <= i < |r| ==> r[i] in f;
    r
  }

  /** `GET /api/messages/:userId/:technicianId`. */
  function History(st: Store, a: int, b: int): (r: seq<ChatMessage>)
    ensures |r| == Count(st.rows, Conversation(a, b))
    ensures forall i, j :: 0 <= i < j < |r| ==> r[i].timestamp <= r[j].timestamp
    ensures forall i :: 0 <= i < |r| ==>
              (r[i].senderId == a && r[i].receiverId == b) || (r[i].senderId == b && r[i].receiverId == a)
    ensures forall row :: row in st.rows && InPair(row, a, b) ==> ToWire(row) in r
  {
    var rows := HistoryRows(st, a, b);
    ToWiresMembers(rows);
    WiresFollowRows(rows, a, b);
    ToWires(rows)
  }

  /** Normalising keeps the order and the participants of the rows. */
  lemma WiresFollowRows(rows: seq<Row>, a: int, b: int)
    requires Ordering.SortedBy(rows, TimeOf)
    requires forall i :: 0 <= i < |rows| ==> InPair(rows[i], a, b)
    ensures var r := ToWires(rows);
            && (forall i, j :: 0 <= i < j < |r| ==> r[i].timestamp <= r[j].timestamp)
            && (forall i :: 0 <= i < |r| ==>
                  (r[i].senderId == a && r[i].receiverId == b) || (r[i].senderId == b && r[i].receiverId == a))
  {
    var r := ToWires(rows);
    forall i, j | 0 <= i < j < |r| ensures r[i].timestamp <= r[j].timestamp {
      assert TimeOf(rows[i]) <= TimeOf(rows[j]);
    }
    forall i | 0 <= i < |r|
      ensures (r[i].senderId == a && r[i].receiverId == b) || (r[i].senderId == b && r[i].receiverId == a)
    {
      assert InPair(rows[i], a, b);
    }
  }

  /** A row the location-history query selects. */
  predicate IsLocationRow(row: Row, a: int, b: int) {
    InPair(row, a, b) && row.kind == "location" && row.location.Some?
  }

  function LocationsOf(a: int, b: int): Row -> bool {
    row => IsLocationRow(row, a, b)
  }

  /** How many rows the location-history query returns at most. */
  const LocationLimit: nat := 20

  /** Qualifying rows in descending `created_at`, before the limit. */
  function LocationRowsByRecency(st: Store, a: int, b: int): (r: seq<Row>)
    ensures Ordering.SortedBy(r, NegTimeOf)
    ensures forall row :: row in r <==> row in st.rows && IsLocationRow(row, a, b)
    ensures |r| == Count(st.rows, LocationsOf(a, b))
    ensures forall i :: 0 <= i < |r| ==> r[i] in st.rows && IsLocationRow(r[i], a, b)
  {
    var f := Filter(st.rows, LocationsOf(a, b));
    var r := Ordering.SortBy(f, NegTimeOf);
    assert forall i :: 0 <= i < |r| ==> r[i] in f;
    r
  }

  /** `GET /api/locations/:userId/:technicianId`: the 20 most recent location
      messages of the conversation, newest first. */
  function LocationHistory(st: Store, a: int, b: int): (r: seq<ChatMessage>)
    ensures |r| <= LocationLimit
    ensures |r| == if Count(st.rows, LocationsOf(a, b)) < LocationLimit
                   then Count(st.rows, LocationsOf(a, b)) else LocationLimit
    ensures forall i :: 0 <= i < |r| ==> r[i].kind == "location" && r[i].location.Some?
    ensures forall i, j :: 0 <= i < j < |r| ==> r[i].timestamp >= r[j].timestamp
    ensures forall i :: 0 <= i < |r| ==> r[i] == ToLocationWire(LocationRowsByRecency(st, a, b)[i])
  {
    var all := LocationRowsByRecency(st, a, b);
    LimitedWires(all, a, b);
    ToLocationWires(Take(all, LocationLimit))
  }

  lemma LimitedWires(all: seq<Row>, a: int, b: int)
    requires Ordering.SortedBy(all, NegTimeOf)
    requires forall i :: 0 <= i < |all| ==> IsLocationRow(all[i], a, b)
    ensures var r := ToLocationWires(Take(all, LocationLimit));
            && (forall i :: 0 <= i < |r| ==> r[i] == ToLocationWire(all[i]))
            && (forall i :: 0 <= i < |r| ==> r[i].kind == "location" && r[i].location.Some?)
            && (forall i, j :: 0 <= i < j < |r| ==> r[i].timestamp >= r[j].timestamp)
  {
    var kept := Take(all, LocationLimit);
    var r := ToLocationWires(kept);
    forall i | 0 <= i < |r| ensures r[i] == ToLocationWire(all[i]) {
      assert kept[i] == all[i];
    }
    forall i | 0 <= i < |r| ensures r[i].kind == "location" && r[i].location.Some? {
      assert IsLocationRow(all[i], a, b);
    }
    forall i, j | 0 <= i < j < |r| ensures r[i].timestamp >= r[j].timestamp {
      assert NegTimeOf(all[i]) <= NegTimeOf(all[j]);
    }
  }

  /** A newer qualifying row is never left out in favour of an older one. */
  lemma LocationHistoryKeepsNewest(st: Store, a: int, b: int, k: nat, dropped: nat)
    requires k < LocationLimit && k < |LocationRowsByRecency(st, a, b)|
    requires LocationLimit <= dropped < |LocationRowsByRecency(st, a, b)|
    ensures LocationHistory(st, a, b)[k].timestamp >= LocationRowsByRecency(st, a, b)[dropped].createdAt
  {
    var all := LocationRowsByRecency(st, a, b);
    assert NegTimeOf(all[k]) <= NegTimeOf(all[dropped]);
    assert LocationHistory(st, a, b)[k] == ToLocationWire(all[k]);
  }

  /** An unread message from `from` to `to`, the rows `markRead` flips. */
  predicate UnreadFrom(row: Row, to: int, from: int) {
    row.receiverId == to && row.senderId == from && !row.isRead
  }

  /** An unread message addressed to `to`. */
  predicate UnreadFor(row: Row, to: int) {
    row.receiverId == to && !row.isRead
  }

  function UnreadFromSel(to: int, from: int): Row -> bool {
    row => UnreadFrom(row, to, from)
  }

  function UnreadForSel(to: int): Row -> bool {
    row => UnreadFor(row, to)
  }

  function MarkRows(rows: seq<Row>, to: int, from: int): (r: seq<Row>)
    ensures |r| == |rows|
    ensures forall i :: 0 <= i < |rows| ==>
              r[i] == if UnreadFrom(rows[i], to, from) then rows[i].(isRead := true) else rows[i]
  {
    if |rows| == 0 then []
    else
      [if UnreadFrom(rows[0], to, from) then rows[0].(isRead := true) else rows[0]]
      + MarkRows(rows[1..], to, from)
  }

  /** `PUT /api/messages/read`: `UPDATE ... SET is_read = true WHERE receiver_id = to
      AND sender_id = from AND is_read = false`, returning the row count. */
  function MarkRead(st: Store, to: int, from: int): (r: (Store, nat))
    ensures r.1 == Count(st.rows, UnreadFromSel(to, from))
    ensures r.0.nextId == st.nextId && |r.0.rows| == |st.rows|
    ensures forall i :: 0 <= i < |st.rows| ==>
              r.0.rows[i].id == st.rows[i].id && (st.rows[i].isRead ==> r.0.rows[i].isRead)
  {
    (Store(MarkRows(st.rows, to, from), st.nextId), Count(st.rows, UnreadFromSel(to, from)))
  }

  /** The mark-read endpoint as a whole: a missing or zero id in the body
      answers 400 (`None`) and changes nothing; otherwise the update runs and
      leaves nothing from `technicianId` to `userId` unread. */
  function MarkReadRequest(st: Store, userId: Option<int>, technicianId: Option<int>): (r: (Store, Option<nat>))
    ensures r.1.None? <==> !TruthyInt(userId) || !TruthyInt(technicianId)
    ensures r.1.None? ==> r.0 == st
    ensures r.1.Some? ==> r.1.value == Count(st.rows, UnreadFromSel(userId.value, technicianId.value))
    ensures r.1.Some? ==> Count(r.0.rows, UnreadFromSel(userId.value, technicianId.value)) == 0
  {
    if !TruthyInt(userId) || !TruthyInt(technicianId) then (st, None)
    else
      MarkRowsClears(st.rows, userId.value, technicianId.value);
      var (st1, n) := MarkRead(st, userId.value, technicianId.value);
      (st1, Some(n))
  }

  /** The unread-count query of the `GET /api/messages/unread/:userId`
      handler: the messages addressed to `to` that are still unread. */
  function UnreadCount(st: Store, to: int): nat
  {
    Count(st.rows, UnreadForSel(to))
  }

  /** After marking, nothing from `from` to `to` is unread. */
  lemma {:induction false} MarkRowsClears(rows: seq<Row>, to: int, from: int)
    ensures Count(MarkRows(rows, to, from), UnreadFromSel(to, from)) == 0
  {
    var r := MarkRows(rows, to, from);
    forall i | 0 <= i < |r| ensures !UnreadFromSel(to, from)(r[i]) {
    }
  }

  /** Marking twice in a row: the second call flips nothing and returns 0. */
  lemma MarkReadIdempotent(st: Store, to: int, from: int)
    ensures var (st1, _) := MarkRead(st, to, from);
            MarkRead(st1, to, from).1 == 0 && MarkRead(st1, to, from).0 == st1
  {
    var st1 := MarkRead(st, to, from).0;
    MarkRowsClears(st.rows, to, from);
    var st2 := MarkRead(st1, to, from).0;
    assert st2.rows == st1.rows by {
      forall i | 0 <= i < |st1.rows| ensures st2.rows[i] == st1.rows[i] {
        assert st1.rows[i] in st1.rows;
      }
    }
  }

  /** The unread count of `to` drops by exactly the number `markRead` reports. */
  lemma {:induction false} MarkRowsUnread(rows: seq<Row>, to: int, from: int)
    ensures Count(MarkRows(rows, to, from), UnreadForSel(to))
            == Count(rows, UnreadForSel(to)) - Count(rows, UnreadFromSel(to, from))
  {
    if |rows| > 0 {
      MarkRowsUnread(rows[1..], to, from);
      var r := MarkRows(rows, to, from);
      assert r[1..] == MarkRows(rows[1..], to, from);
      assert UnreadForSel(to)(r[0]) == (UnreadForSel(to)(rows[0]) && !UnreadFromSel(to, from)(rows[0]));
    }
  }

  lemma MarkReadDropsUnreadCount(st: Store, to: int, from: int)
    ensures UnreadCount(MarkRead(st, to, from).0, to) == UnreadCount(st, to) - MarkRead(st, to, from).1
  {
    MarkRowsUnread(st.rows, to, from);
  }

  /** Other recipients' unread counts are untouched by a mark-read for `to`. */
  lemma {:induction false} MarkRowsOthers(rows: seq<Row>, to: int, from: int, other: int)
    requires other != to
    ensures Count(MarkRows(rows, to, from), UnreadForSel(other))
            == Count(rows, UnreadForSel(other))
  {
    if |rows| > 0 {
      MarkRowsOthers(rows[1..], to, from, other);
      var r := MarkRows(rows, to, from);
      assert r[1..] == MarkRows(rows[1..], to, from);
    }
  }

  lemma MarkReadKeepsOthers(st: Store, to: int, from: int, other: int)
    requires other != to
    ensures UnreadCount(MarkRead(st, to, from).0, other) == UnreadCount(st, other)
  {
    MarkRowsOthers(st.rows, to, from, other);
  }

  /** Inserting a message raises exactly its receiver's unread count, by one. */
  lemma InsertRaisesUnread(st: Store, s: int, t: int, body: string, kind: string,
                           loc: Option<Location>, now: int, who: int)
    ensures UnreadCount(Insert(st, s, t, body, kind, loc, now).0, who)
            == UnreadCount(st, who) + (if who == t then 1 else 0)
  {
    var (st1, row) := Insert(st, s, t, body, kind, loc, now);
    CountAppend(st.rows, [row], UnreadForSel(who));
  }

  /** The handlers of the `GET /api/messages/...` routes. */
  datatype MessageHandler = HistoryHandler | UnreadCountHandler

  /** `GET /api/messages/...` routes after the prefix, in declaration order:
      the history route is declared before the unread-count route. */
  const MessageRoutes: seq<(seq<Pattern>, MessageHandler)> :=
    [([Param("userId"), Param("technicianId")], HistoryHandler),
     ([Literal("unread"), Param("userId")], UnreadCountHandler)]

  /** Every path the unread-count route matches is matched first by the
      history route, so the unread-count handler is never reached; a
      request for `/api/messages/unread/<id>` is served by the history
      handler with `userId` equal to `"unread"`. */
  lemma UnreadCountShadowed(path: seq<string>)
    ensures Dispatch(MessageRoutes, path) != Some(UnreadCountHandler)
    ensures |path| == 2 && path[0] == "unread" && path[1] != "" ==>
              Dispatch(MessageRoutes, path) == Some(HistoryHandler)
  {
  }
}

=== FILE: ordering.dfy ===
/** `ORDER BY key` over a query result: a stable insertion sort on an integer
    key. SQL leaves the order of equal keys open; keeping the scan order is
    one of the orders the database may return. */
module Ordering {

  /** `s` is in non-decreasing order of `key`. */
  predicate SortedBy<T>(s: seq<T>, key: T -> int) {
    forall i, j :: 0 <= i < j < |s| ==> key(s[i]) <= key(s[j])
  }

  /** Places `x` into the sorted `s`, before every element with an equal or larger key. */
  function Insert<T>(x: T, s: seq<T>, key: T -> int): (r: seq<T>)
    requires SortedBy(s, key)
    ensures SortedBy(r, key)
    ensures multiset(r) == multiset(s) + multiset{x}
    ensures |r| == |s| + 1
    ensures r[0] == x || (|s| > 0 && r[0] == s[0])
  {
    if |s| == 0 then [x]
    else if key(x) <= key(s[0]) then [x] + s
    else
      var rest := Insert(x, s[1..], key);
      assert s == [s[0]] + s[1..];
      [s[0]] + rest
  }

  /** The elements of `s` ordered by `key`. */
  function SortBy<T(!new)>(s: seq<T>, key: T -> int): (r: seq<T>)
    ensures SortedBy(r, key)
    ensures multiset(r) == multiset(s)
    ensures |r| == |s|
    ensures forall x :: x in r <==> x in s
  {
    if |s| == 0 then []
    else
      assert s == [s[0]] + s[1..];
      var r := Insert(s[0], SortBy(s[1..], key), key);
      assert forall x :: x in r <==> x in multiset(r);
      r
  }
}

=== FILE: rooms.dfy ===
/** The conversation room resolver shared by the server and the chat screen:
    a room id is `[a, b].sort().join('-')`, where the default sort compares
    the string forms of the two participant ids. */
module RoomResolver {
  import opened Text

  /** `[a, b].sort().join('-')` for two string forms. */
  function RoomId(a: string, b: string): (r: string)
    ensures (LexLe(a, b) && r == a + "-" + b) || (LexLe(b, a) && r == b + "-" + a)
  {
    LexLeTotal(a, b);
    if LexLe(a, b) then a + "-" + b else b + "-" + a
  }

  /** The room of two numeric participant ids, through their decimal forms. */
  function RoomOf(a: int, b: int): string
  {
    RoomId(IntToDecimal(a), IntToDecimal(b))
  }

  /** Both participants resolve to the same room, whoever initiates. */
  lemma RoomIdCommutative(a: string, b: string)
    ensures RoomId(a, b) == RoomId(b, a)
  {
    if LexLe(a, b) && LexLe(b, a) {
      LexLeAntisymmetric(a, b);
    }
  }

  lemma RoomOfCommutative(a: int, b: int)
    ensures RoomOf(a, b) == RoomOf(b, a)
  {
    RoomIdCommutative(IntToDecimal(a), IntToDecimal(b));
  }

  /** Two string forms without a dash are recovered from their room id. */
  lemma {:induction false} RoomIdSplits(x: string, y: string)
    requires '-' !in x && '-' !in y
    ensures Split(x + "-" + y, '-') == [x, y]
  {
    SplitPrefix(x, y, '-');
    SplitNoSeparator(y, '-');
  }

  /** Decimal forms of natural numbers are distinct for distinct numbers. */
  lemma DecimalInjective(a: nat, b: nat)
    requires NatToDecimal(a) == NatToDecimal(b)
    ensures a == b
  {
    DecimalValue(a);
    DecimalValue(b);
  }

  lemma NoDashInDecimal(n: nat)
    ensures '-' !in NatToDecimal(n)
  {
  }

  /** Different pairs of (non-negative) participants never share a room, so a
      broadcast for one conversation cannot reach the room of another. */
  lemma {:induction false} RoomOfInjective(a: nat, b: nat, c: nat, d: nat)
    requires RoomOf(a, b) == RoomOf(c, d)
    ensures (a == c && b == d) || (a == d && b == c)
  {
    var da, db, dc, dd := NatToDecimal(a), NatToDecimal(b), NatToDecimal(c), NatToDecimal(d);
    assert IntToDecimal(a) == da && IntToDecimal(b) == db;
    assert IntToDecimal(c) == dc && IntToDecimal(d) == dd;
    NoDashInDecimal(a);
    NoDashInDecimal(b);
    NoDashInDecimal(c);
    NoDashInDecimal(d);
    var r := RoomOf(a, b);
    var first, second := if LexLe(da, db) then da else db, if LexLe(da, db) then db else da;
    var first', second' := if LexLe(dc, dd) then dc else dd, if LexLe(dc, dd) then dd else dc;
    assert r == first + "-" + second;
    assert r == first' + "-" + second';
    RoomIdSplits(first, second);
    RoomIdSplits(first', second');
    assert [first, second] == [first', second'];
    assert first == first' && second == second';
    if LexLe(da, db) {
      if LexLe(dc, dd) {
        DecimalInjective(a, c);
        DecimalInjective(b, d);
      } else {
        DecimalInjective(a, d);
        DecimalInjective(b, c);
      }
    } else {
      if LexLe(dc, dd) {
        DecimalInjective(b, c);
        DecimalInjective(a, d);
      } else {
        DecimalInjective(b, d);
        DecimalInjective(a, c);
      }
    }
  }
}

=== FILE: technician.dfy ===
/** Technician profiles: the `POST /technician/profile` validation and skills
    normalisation, the upsert keyed by technician id, and the profile lookup
    with its rating summary. */
module TechnicianProfiles {
  import opened Common
  import opened Text

  /** The `skills` field of the request body, by its JavaScript type. */
  datatype SkillsInput =
    | SkillList(items: seq<string>)
    | SkillText(text: string)
    | SkillOther(truthy: bool)
    | SkillsAbsent

  /** The request body; `""` stands for a missing text field. */
  datatype ProfileRequest = ProfileRequest(
    technicianId: Option<int>,
    bio: string,
    location: string,
    skills: SkillsInput,
    availability: string)

  /** A row of `technician_profiles`. */
  datatype Profile = Profile(technicianId: int, bio: string, location: string,
                             skills: seq<string>, availability: string)

  /** `!skills`: an array is truthy even when empty. */
  predicate SkillsTruthy(s: SkillsInput) {
    match s
    case SkillList(_) => true
    case SkillText(t) => t != ""
    case SkillOther(t) => t
    case SkillsAbsent => false
  }

  predicate MissingFields(req: ProfileRequest) {
    !TruthyInt(req.technicianId) || req.bio == "" || req.location == "" || !SkillsTruthy(req.skills)
  }

  /** `s.trim()` of every piece. */
  function TrimAll(parts: seq<string>): (r: seq<string>)
    ensures |r| == |parts|
    ensures forall i :: 0 <= i < |parts| ==> r[i] == Trim(parts[i])
    ensures forall x :: x in r ==> NoEdgeSpace(x)
  {
    if |parts| == 0 then [] else [Trim(parts[0])] + TrimAll(parts[1..])
  }

  function NotBlank(): string -> bool {
    (s: string) => Trim(s) != ""
  }

  function NotEmpty(): string -> bool {
    (s: string) => s != ""
  }

  /** The skills list saved for a request, or `None` for a value that is
      neither an array nor a string (answered with 400). */
  function NormaliseSkills(s: SkillsInput): (r: Option<seq<string>>)
    ensures r.None? <==> s.SkillOther? || s.SkillsAbsent?
    ensures s.SkillList? ==> r.Some? && forall x :: x in r.value <==> x in s.items && Trim(x) != ""
    ensures s.SkillList? ==> r.Some? && IsSubsequence(r.value, s.items)
    ensures s.SkillText? ==>
              r.Some? && forall x :: x in r.value <==> x != "" && exists p :: p in Split(s.text, ',') && Trim(p) == x
  {
    match s
    case SkillList(items) =>
      FilterIsSubsequence(items, NotBlank());
      Some(Filter(items, NotBlank()))
    case SkillText(text) =>
      var pieces := TrimAll(Split(text, ','));
      TrimAllMembers(Split(text, ','));
      Some(Filter(pieces, NotEmpty()))
    case SkillOther(_) => None
    case SkillsAbsent => None
  }

  /** The trimmed pieces are exactly the trims of the pieces. */
  lemma TrimAllMembers(parts: seq<string>)
    ensures forall x :: x in TrimAll(parts) <==> exists p :: p in parts && Trim(p) == x
  {
    var pieces := TrimAll(parts);
    forall x | x in pieces ensures exists p :: p in parts && Trim(p) == x {
      var i :| 0 <= i < |pieces| && pieces[i] == x;
      assert parts[i] in parts;
    }
    forall x | exists p :: p in parts && Trim(p) == x ensures x in pieces {
      var p :| p in parts && Trim(p) == x;
      var i :| 0 <= i < |parts| && parts[i] == p;
      assert pieces[i] == x;
    }
  }

  /** Neither input form leaves a skill that is blank after trimming; the
      comma-separated form also leaves no surrounding white space. */
  lemma NoBlankSkills(s: SkillsInput)
    requires NormaliseSkills(s).Some?
    ensures forall x :: x in NormaliseSkills(s).value ==> Trim(x) != ""
    ensures s.SkillText? ==> forall x :: x in NormaliseSkills(s).value ==> Trim(x) == x
  {
    if s.SkillText? {
      forall x | x in NormaliseSkills(s).value ensures Trim(x) == x && Trim(x) != "" {
        var p :| p in Split(s.text, ',') && Trim(p) == x;
        TrimIdempotent(p);
      }
    }
  }

  /** `availability || 'Available'`. */
  function Availability(given: string): (a: string)
    ensures a != ""
    ensures given != "" ==> a == given
  {
    if given == "" then "Available" else given
  }

  /** Rows of one technician. */
  function ForTech(id: int): Profile -> bool {
    (p: Profile) => p.technicianId == id
  }

  /** The `SELECT ... WHERE technician_id = $1` finds a row. */
  predicate HasProfile(rows: seq<Profile>, id: int) {
    exists i :: 0 <= i < |rows| && rows[i].technicianId == id
  }

  lemma HasProfileCount(rows: seq<Profile>, id: int)
    ensures HasProfile(rows, id) <==> Count(rows, ForTech(id)) > 0
  {
    if HasProfile(rows, id) {
      var i :| 0 <= i < |rows| && rows[i].technicianId == id;
      assert ForTech(id)(rows[i]);
    }
  }

  function Overwrite(rows: seq<Profile>, p: Profile): (r: seq<Profile>)
    ensures |r| == |rows|
    ensures forall i :: 0 <= i < |rows| ==> r[i] == if rows[i].technicianId == p.technicianId then p else rows[i]
  {
    if |rows| == 0 then []
    else [if rows[0].technicianId == p.technicianId then p else rows[0]] + Overwrite(rows[1..], p)
  }

  /** `createOrUpdateProfile`: overwrite the technician's row(s) when one
      exists, insert otherwise. */
  function Upsert(rows: seq<Profile>, p: Profile): (r: seq<Profile>)
    ensures HasProfile(rows, p.technicianId) ==>
              |r| == |rows| &&
              forall i :: 0 <= i < |rows| ==>
                (rows[i].technicianId == p.technicianId ==> r[i] == p) &&
                (rows[i].technicianId != p.technicianId ==> r[i] == rows[i])
    ensures !HasProfile(rows, p.technicianId) ==> r == rows + [p]
  {
    if HasProfile(rows, p.technicianId) then Overwrite(rows, p) else rows + [p]
  }

  lemma {:induction false} OverwriteCount(rows: seq<Profile>, p: Profile, id: int)
    ensures Count(Overwrite(rows, p), ForTech(id)) == Count(rows, ForTech(id))
  {
    if |rows| > 0 {
      OverwriteCount(rows[1..], p, id);
      assert Overwrite(rows, p)[1..] == Overwrite(rows[1..], p);
    }
  }

  /** Upserting keeps at most one row per technician: afterwards there is
      exactly one row for this technician when there was at most one before,
      and every other technician's rows are as they were. */
  lemma UpsertOneRow(rows: seq<Profile>, p: Profile, other: int)
    requires Count(rows, ForTech(p.technicianId)) <= 1
    ensures Count(Upsert(rows, p), ForTech(p.technicianId)) == 1
    ensures other != p.technicianId ==> Count(Upsert(rows, p), ForTech(other)) == Count(rows, ForTech(other))
  {
    HasProfileCount(rows, p.technicianId);
    UpsertCount(rows, p, p.technicianId);
    UpsertCount(rows, p, other);
  }

  /** How an upsert changes one technician's row count. */
  lemma UpsertCount(rows: seq<Profile>, p: Profile, id: int)
    ensures HasProfile(rows, p.technicianId) ==> Count(Upsert(rows, p), ForTech(id)) == Count(rows, ForTech(id))
    ensures !HasProfile(rows, p.technicianId) ==>
              Count(Upsert(rows, p), ForTech(id)) == Count(rows, ForTech(id)) + (if id == p.technicianId then 1 else 0)
  {
    if HasProfile(rows, p.technicianId) {
      OverwriteCount(rows, p, id);
    } else {
      CountAppend(rows, [p], ForTech(id));
      assert Count([p], ForTech(id)) == (if id == p.technicianId then 1 else 0);
    }
  }

  /** Saving the same profile twice leaves the table as one save does. */
  lemma UpsertIdempotent(rows: seq<Profile>, p: Profile)
    ensures Upsert(Upsert(rows, p), p) == Upsert(rows, p)
  {
    var once := Upsert(rows, p);
    assert HasProfile(once, p.technicianId) by {
      if HasProfile(rows, p.technicianId) {
        var i :| 0 <= i < |rows| && rows[i].technicianId == p.technicianId;
        assert once[i] == p;
      } else {
        assert once[|rows|] == p;
      }
    }
    var twice := Overwrite(once, p);
    forall i | 0 <= i < |once| ensures twice[i] == once[i] {
      if i < |rows| {
        assert once[i].technicianId == p.technicianId ==> once[i] == p;
      } else {
        assert once[i] == p;
      }
    }
  }

  /** The technician's first row (`rows[0]` of the `SELECT`). */
  function FindProfile(rows: seq<Profile>, id: int): (r: Option<Profile>)
    ensures r.None? <==> !HasProfile(rows, id)
    ensures r.Some? ==> exists k :: 0 <= k < |rows| && rows[k] == r.value && r.value.technicianId == id &&
                                    forall j :: 0 <= j < k ==> rows[j].technicianId != id
  {
    if |rows| == 0 then None
    else if rows[0].technicianId == id then Some(rows[0])
    else
      var r := FindProfile(rows[1..], id);
      assert forall i :: 1 <= i < |rows| ==> rows[i] == rows[1..][i - 1];
      if r.Some? then
        var k :| 0 <= k < |rows[1..]| && rows[1..][k] == r.value && r.value.technicianId == id &&
                 forall j :: 0 <= j < k ==> rows[1..][j].technicianId != id;
        assert rows[k + 1] == r.value;
        r
      else r
  }

  /** After an upsert, the profile read back is the saved one. */
  lemma UpsertThenFind(rows: seq<Profile>, p: Profile)
    ensures FindProfile(Upsert(rows, p), p.technicianId) == Some(p)
  {
    var after := Upsert(rows, p);
    assert HasProfile(after, p.technicianId) by {
      if HasProfile(rows, p.technicianId) {
        var i :| 0 <= i < |rows| && rows[i].technicianId == p.technicianId;
        assert after[i] == p;
      } else {
        assert after[|rows|] == p;
      }
    }
    var found := FindProfile(after, p.technicianId);
    var k :| 0 <= k < |after| && after[k] == found.value && found.value.technicianId == p.technicianId;
    if HasProfile(rows, p.technicianId) {
      assert k < |rows|;
    }
  }

  datatype Rating = Rating(technicianId: int, stars: int)

  /** What `getProfileWithRating` returns. `average` is `None` where the
      source answers `0` because `AVG` is `NULL`. */
  datatype ProfileData = ProfileData(profile: Option<Profile>, average: Option<real>, totalRatings: nat)

  function RatingsOf(id: int): Rating -> bool {
    (r: Rating) => r.technicianId == id
  }

  function SumStars(ratings: seq<Rating>): int
  {
    if |ratings| == 0 then 0 else ratings[0].stars + SumStars(ratings[1..])
  }

  /** `avg` is the mean of `n` values summing to `sum`. */
  predicate IsMean(avg: real, sum: int, n: nat) {
    avg * (n as real) == sum as real
  }

  /** `AVG` over `n` values summing to `sum`. */
  function Mean(sum: int, n: nat): (m: real)
    requires n > 0
    ensures IsMean(m, sum, n)
  {
    sum as real / n as real
  }

  function ProfileWithRating(rows: seq<Profile>, ratings: seq<Rating>, id: int): (d: ProfileData)
    ensures d.profile == FindProfile(rows, id)
    ensures d.totalRatings == Count(ratings, RatingsOf(id))
    ensures d.totalRatings == 0 <==> d.average.None?
    ensures d.average.Some? ==> IsMean(d.average.value, SumStars(Filter(ratings, RatingsOf(id))), d.totalRatings)
  {
    var mine := Filter(ratings, RatingsOf(id));
    if |mine| == 0 then ProfileData(FindProfile(rows, id), None, 0)
    else
      var m := Mean(SumStars(mine), |mine|);
      ProfileData(FindProfile(rows, id), Some(m), |mine|)
  }

  datatype Reply = Reply(status: nat, message: string)

  /** What `getTechnicianProfile` answers: 404 with a message, or 200 with
      the profile and its rating summary as the body. */
  datatype ProfileReply = NotFound(message: string) | Found(data: ProfileData)
  {
    function Status(): nat {
      if NotFound? then 404 else 200
    }
  }

  /** `getTechnicianProfile`. */
  function GetProfile(rows: seq<Profile>, ratings: seq<Rating>, id: int): (r: ProfileReply)
    ensures r.NotFound? <==> !HasProfile(rows, id)
    ensures r.Status() == 200 <==> HasProfile(rows, id)
    ensures r.NotFound? ==> r.message == "Profile not found."
    ensures r.Found? ==> r.data == ProfileWithRating(rows, ratings, id) && r.data.profile.Some?
    ensures r.Found? ==> r.data.profile == FindProfile(rows, id) &&
                         r.data.totalRatings == Count(ratings, RatingsOf(id))
  {
    var data := ProfileWithRating(rows, ratings, id);
    if data.profile.None? then NotFound("Profile not found.")
    else Found(data)
  }

  /** `postProfile`; `dbOk` is whether the database calls succeed. */
  function PostProfile(rows: seq<Profile>, req: ProfileRequest, dbOk: bool): (r: (seq<Profile>, Reply))
    ensures r.1.status != 201 ==> r.0 == rows
    ensures MissingFields(req) ==> r.1 == Reply(400, "Missing required fields.")
    ensures !MissingFields(req) && req.skills.SkillOther? ==>
              r.1 == Reply(400, "Skills must be an array or comma-separated string.")
    ensures r.1.status == 201 <==> !MissingFields(req) && !req.skills.SkillOther? && dbOk
    ensures r.1.status == 201 ==>
              var saved := Profile(req.technicianId.value, req.bio, req.location,
                                   NormaliseSkills(req.skills).value, Availability(req.availability));
              r.0 == Upsert(rows, saved)
  {
    if MissingFields(req) then (rows, Reply(400, "Missing required fields."))
    else match NormaliseSkills(req.skills)
      case None => (rows, Reply(400, "Skills must be an array or comma-separated string."))
      case Some(skills) =>
        if !dbOk then (rows, Reply(500, "Server error."))
        else
          var saved := Profile(req.technicianId.value, req.bio, req.location, skills,
                               Availability(req.availability));
          (Upsert(rows, saved), Reply(201, "Profile saved."))
  }

  /** A saved profile is what a later fetch returns: status 200 and the
      saved fields, with blank skills removed and the default availability. */
  lemma PostThenGet(rows: seq<Profile>, ratings: seq<Rating>, req: ProfileRequest)
    requires PostProfile(rows, req, true).1.status == 201
    ensures var after := PostProfile(rows, req, true).0;
            var id := req.technicianId.value;
            && GetProfile(after, ratings, id).Found?
            && GetProfile(after, ratings, id).data.profile ==
                 Some(Profile(id, req.bio, req.location, NormaliseSkills(req.skills).value,
                              Availability(req.availability)))
            && var got := GetProfile(after, ratings, id).data.profile.value;
            && got.bio == req.bio && got.location == req.location
            && got.availability != ""
            && forall x :: x in got.skills ==> Trim(x) != ""
  {
    var saved := Profile(req.technicianId.value, req.bio, req.location,
                         NormaliseSkills(req.skills).value, Availability(req.availability));
    UpsertThenFind(rows, saved);
    NoBlankSkills(req.skills);
  }
}

=== FILE: text.dfy ===
/** The string operations the application relies on, as ECMAScript defines
    them: `trim`, `split` on one character, `replace` of the first occurrence
    of a literal, `String(n)` for integers, `parseInt(s)` without a radix
    (decimal, or hexadecimal after `0x`), and the order the default
    `Array.prototype.sort` uses on the digit-and-dash strings the program
    sorts. */
module Text {
  import opened Common

  /** ECMAScript `WhiteSpace` and `LineTerminator` code points, the set that
      `String.prototype.trim` and `parseInt` skip. */
  predicate IsSpace(c: char) {
    c == ' ' || c == '\t' || c == '\n' || c == '\r' || c == '\U{000B}' || c == '\U{000C}'
    || c == '\U{00A0}' || c == '\U{1680}' || ('\U{2000}' <= c <= '\U{200A}')
    || c == '\U{2028}' || c == '\U{2029}' || c == '\U{202F}' || c == '\U{205F}'
    || c == '\U{3000}' || c == '\U{FEFF}'
  }

  predicate AllSpace(s: string) {
    forall i :: 0 <= i < |s| ==> IsSpace(s[i])
  }

  /** Number of white-space characters at the start of `s`. */
  function LeadingSpace(s: string): (n: nat)
    ensures n <= |s|
    ensures n < |s| ==> !IsSpace(s[n])
    ensures forall i :: 0 <= i < n ==> IsSpace(s[i])
  {
    if |s| > 0 && IsSpace(s[0]) then 1 + LeadingSpace(s[1..]) else 0
  }

  /** Number of white-space characters at the end of `s`. */
  function TrailingSpace(s: string): (n: nat)
    ensures n <= |s|
    ensures n < |s| ==> !IsSpace(s[|s| - n - 1])
    ensures forall i :: |s| - n <= i < |s| ==> IsSpace(s[i])
  {
    if |s| > 0 && IsSpace(s[|s| - 1]) then 1 + TrailingSpace(s[..|s| - 1]) else 0
  }

  /** `s` with its leading white space removed. */
  function TrimStart(s: string): (r: string)
    ensures |r| > 0 ==> !IsSpace(r[0])
  {
    s[LeadingSpace(s)..]
  }

  /** `String.prototype.trim`: the leading and the trailing white space removed. */
  /** Neither end of `s` is white space. */
  predicate NoEdgeSpace(s: string) {
    |s| > 0 ==> !IsSpace(s[0]) && !IsSpace(s[|s| - 1])
  }

  function Trim(s: string): (r: string)
    ensures LeadingSpace(s) + |r| <= |s| && r == s[LeadingSpace(s)..LeadingSpace(s) + |r|]
    ensures |r| > 0 ==> !IsSpace(r[0]) && !IsSpace(r[|r| - 1])
    ensures NoEdgeSpace(r)
    ensures |r| == 0 <==> AllSpace(s)
    ensures AllSpace(s[LeadingSpace(s) + |r|..])
  {
    var t := TrimStart(s);
    assert s[LeadingSpace(s)..] == t;
    var r := t[..|t| - TrailingSpace(t)];
    assert |r| > 0 ==> r[0] == t[0];
    assert |t| > 0 ==> |r| > 0 by {
      if |t| > 0 {
        assert !IsSpace(t[0]);
      }
    }
    r
  }

  /** Trimming an already trimmed string changes nothing. */
  lemma TrimIdempotent(s: string)
    ensures Trim(Trim(s)) == Trim(s)
  {
    var r := Trim(s);
    if |r| > 0 {
      assert LeadingSpace(r) == 0;
      assert TrimStart(r) == r;
      assert TrailingSpace(r) == 0;
    }
  }

  /** `s.split(sep)` for a one-character separator: the pieces between
      separators, keeping empty pieces; `"".split(sep)` is `[""]`. */
  function Split(s: string, sep: char): (r: seq<string>)
    ensures |r| >= 1
    ensures forall i :: 0 <= i < |r| ==> sep !in r[i]
  {
    if |s| == 0 then [""]
    else if s[0] == sep then [""] + Split(s[1..], sep)
    else
      var rest := Split(s[1..], sep);
      [[s[0]] + rest[0]] + rest[1..]
  }

  /** `parts.join(sep)`. */
  function Join(parts: seq<string>, sep: char): string
  {
    if |parts| == 0 then ""
    else if |parts| == 1 then parts[0]
    else parts[0] + [sep] + Join(parts[1..], sep)
  }

  /** Splitting and joining again gives back the original text. */
  lemma {:induction false} JoinSplit(s: string, sep: char)
    ensures Join(Split(s, sep), sep) == s
  {
    if |s| > 0 {
      JoinSplit(s[1..], sep);
      var rest := Split(s[1..], sep);
      if s[0] == sep {
        assert Split(s, sep) == [""] + rest;
        assert ([""] + rest)[1..] == rest;
      } else {
        var parts := [[s[0]] + rest[0]] + rest[1..];
        assert Split(s, sep) == parts;
        if |rest| == 1 {
          assert Join(rest, sep) == rest[0];
        } else {
          assert parts[1..] == rest[1..];
          assert Join(rest, sep) == rest[0] + [sep] + Join(rest[1..], sep);
        }
      }
    }
  }

  /** Joining pieces free of the separator and splitting again gives back the pieces. */
  lemma {:induction false} SplitJoin(parts: seq<string>, sep: char)
    requires |parts| >= 1
    requires forall i :: 0 <= i < |parts| ==> sep !in parts[i]
    ensures Split(Join(parts, sep), sep) == parts
  {
    if |parts| == 1 {
      SplitNoSeparator(parts[0], sep);
    } else {
      SplitJoin(parts[1..], sep);
      SplitPrefix(parts[0], Join(parts[1..], sep), sep);
      assert [parts[0]] + parts[1..] == parts;
    }
  }

  /** Text without the separator splits into itself alone. */
  lemma {:induction false} SplitNoSeparator(s: string, sep: char)
    requires sep !in s
    ensures Split(s, sep) == [s]
  {
    if |s| > 0 {
      SplitNoSeparator(s[1..], sep);
      assert [s[0]] + s[1..] == s;
    }
  }

  /** A separator-free prefix followed by the separator becomes its own first piece. */
  lemma {:induction false} SplitPrefix(a: string, b: string, sep: char)
    requires sep !in a
    ensures Split(a + [sep] + b, sep) == [a] + Split(b, sep)
  {
    if |a| == 0 {
      assert a + [sep] + b == [sep] + b;
      assert ([sep] + b)[1..] == b;
    } else {
      assert (a + [sep] + b)[1..] == a[1..] + [sep] + b;
      SplitPrefix(a[1..], b, sep);
      assert [a[0]] + a[1..] == a;
    }
  }

  /** `pat` occurs in `s` starting at position `j`. */
  predicate MatchAt(s: string, pat: string, j: nat) {
    j + |pat| <= |s| && s[j..j + |pat|] == pat
  }

  /** Position of the first occurrence of `pat` in `s` at or after `from`. */
  function IndexOfFrom(s: string, pat: string, from: nat): (r: Option<nat>)
    requires from <= |s|
    ensures r.Some? ==> from <= r.value && MatchAt(s, pat, r.value)
    ensures r.Some? ==> forall j :: from <= j < r.value ==> !MatchAt(s, pat, j)
    ensures r.None? ==> forall j :: from <= j ==> !MatchAt(s, pat, j)
    decreases |s| - from
  {
    if from + |pat| > |s| then None
    else if MatchAt(s, pat, from) then Some(from)
    else IndexOfFrom(s, pat, from + 1)
  }

  /** `s.indexOf(pat)`, with "not found" as `None`. */
  function IndexOf(s: string, pat: string): Option<nat>
  {
    IndexOfFrom(s, pat, 0)
  }

  /** `s.replace(pat, rep)` with a literal pattern: only the first occurrence is replaced. */
  function ReplaceFirst(s: string, pat: string, rep: string): (r: string)
    ensures IndexOf(s, pat).None? ==> r == s
    ensures IndexOf(s, pat).Some? ==>
              var i := IndexOf(s, pat).value;
              i + |pat| <= |s| &&
              s == s[..i] + pat + s[i + |pat|..] &&
              r == s[..i] + rep + s[i + |pat|..]
  {
    match IndexOf(s, pat)
    case None => s
    case Some(i) =>
      assert s == s[..i] + s[i..i + |pat|] + s[i + |pat|..];
      s[..i] + rep + s[i + |pat|..]
  }

  /** Lexicographic order on code points: how `Array.prototype.sort` without a
      comparator orders the string forms of its elements. */
  predicate LexLe(a: string, b: string)
    decreases |a|
  {
    |a| == 0 ||
    (|b| > 0 && (a[0] < b[0] || (a[0] == b[0] && LexLe(a[1..], b[1..]))))
  }

  lemma {:induction false} LexLeTotal(a: string, b: string)
    ensures LexLe(a, b) || LexLe(b, a)
    decreases |a|
  {
    if |a| > 0 && |b| > 0 && a[0] == b[0] {
      LexLeTotal(a[1..], b[1..]);
    }
  }

  lemma {:induction false} LexLeAntisymmetric(a: string, b: string)
    requires LexLe(a, b) && LexLe(b, a)
    ensures a == b
    decreases |a|
  {
    if |a| > 0 {
      LexLeAntisymmetric(a[1..], b[1..]);
      assert a == [a[0]] + a[1..];
      assert b == [b[0]] + b[1..];
    }
  }

  predicate IsDigit(c: char) {
    '0' <= c <= '9'
  }

  function DigitChar(d: nat): (c: char)
    requires d < 10
    ensures IsDigit(c) && DigitValue(c) == d
  {
    "0123456789"[d]
  }

  function DigitValue(c: char): (d: nat)
    requires IsDigit(c)
    ensures d < 10
  {
    (c as int - '0' as int) as nat
  }

  /** Decimal digits of a natural number, without leading zeros. */
  function NatToDecimal(n: nat): (r: string)
    ensures |r| >= 1
    ensures forall i :: 0 <= i < |r| ==> IsDigit(r[i])
  {
    if n < 10 then [DigitChar(n)] else NatToDecimal(n / 10) + [DigitChar(n % 10)]
  }

  /** `String(n)` for an integer. */
  function IntToDecimal(n: int): string
  {
    if n < 0 then "-" + NatToDecimal(-n) else NatToDecimal(n)
  }

  /** The value of `c` as a digit of any radix up to 36: `0`-`9`, then the
      letters in either case from 10 on. */
  function CharDigit(c: char): (d: Option<nat>)
    ensures d.Some? ==> d.value < 36
    ensures IsDigit(c) ==> d == Some(DigitValue(c))
  {
    if IsDigit(c) then Some(DigitValue(c))
    else if 'a' <= c <= 'z' then Some((c as int - 'a' as int + 10) as nat)
    else if 'A' <= c <= 'Z' then Some((c as int - 'A' as int + 10) as nat)
    else None
  }

  predicate IsRadixDigit(c: char, radix: nat) {
    CharDigit(c).Some? && CharDigit(c).value < radix
  }

  predicate AllRadixDigits(d: string, radix: nat) {
    forall i :: 0 <= i < |d| ==> IsRadixDigit(d[i], radix)
  }

  /** The value of a string of digits in `radix`. */
  function RadixValue(d: string, radix: nat): nat
    requires AllRadixDigits(d, radix)
  {
    if |d| == 0 then 0 else RadixValue(d[..|d| - 1], radix) * radix + CharDigit(d[|d| - 1]).value
  }

  /** The value of a string of decimal digits. */
  function DigitsValue(d: string): nat
    requires forall i :: 0 <= i < |d| ==> IsDigit(d[i])
  {
    assert AllRadixDigits(d, 10) by {
      forall i | 0 <= i < |d| ensures IsRadixDigit(d[i], 10) { assert IsDigit(d[i]); }
    }
    RadixValue(d, 10)
  }

  /** Length of the longest prefix of `s` made of digits in `radix`. */
  function RadixPrefix(s: string, radix: nat): (n: nat)
    ensures n <= |s|
    ensures AllRadixDigits(s[..n], radix)
    ensures n < |s| ==> !IsRadixDigit(s[n], radix)
  {
    if |s| > 0 && IsRadixDigit(s[0], radix) then
      var m := RadixPrefix(s[1..], radix);
      assert s[..1 + m] == [s[0]] + s[1..][..m];
      1 + m
    else 0
  }

  /** What `parseInt` reads after skipping white space: whether a minus sign
      came first, the radix (16 when `0x` or `0X` follows the sign, 10
      otherwise), and the text from which the digits are taken. */
  function NumberParts(s: string): (p: (bool, nat, string))
    ensures p.1 == 10 || p.1 == 16
    ensures |p.2| <= |TrimStart(s)| && p.2 == TrimStart(s)[|TrimStart(s)| - |p.2|..]
    ensures p.0 <==> |TrimStart(s)| > 0 && TrimStart(s)[0] == '-'
  {
    var t := TrimStart(s);
    var neg := |t| > 0 && t[0] == '-';
    var u := if |t| > 0 && (t[0] == '-' || t[0] == '+') then t[1..] else t;
    if |u| >= 2 && u[0] == '0' && (u[1] == 'x' || u[1] == 'X') then (neg, 16, u[2..]) else (neg, 10, u)
  }

  /** `parseInt(s)` without a radix argument: `None` stands for `NaN`, when
      no digit of the radix follows the sign and prefix; otherwise the value
      of the longest run of such digits, negated after a minus sign. */
  function ParseInt(s: string): (r: Option<int>)
    ensures var (neg, radix, z) := NumberParts(s);
            && (r.None? <==> |z| == 0 || !IsRadixDigit(z[0], radix))
            && (r.Some? ==>
                  exists n :: 1 <= n <= |z| && AllRadixDigits(z[..n], radix) &&
                              (n == |z| || !IsRadixDigit(z[n], radix)) &&
                              r.value == if neg then -(RadixValue(z[..n], radix) as int)
                                         else RadixValue(z[..n], radix) as int)
  {
    var (neg, radix, z) := NumberParts(s);
    var n := RadixPrefix(z, radix);
    if n == 0 then None
    else if neg then Some(-(RadixValue(z[..n], radix) as int))
    else Some(RadixValue(z[..n], radix) as int)
  }

  lemma {:induction false} DecimalValue(n: nat)
    ensures DigitsValue(NatToDecimal(n)) == n
  {
    var d := NatToDecimal(n);
    assert AllRadixDigits(d, 10) by {
      forall i | 0 <= i < |d| ensures IsRadixDigit(d[i], 10) { assert IsDigit(d[i]); }
    }
    if n >= 10 {
      DecimalValue(n / 10);
      assert d[..|d| - 1] == NatToDecimal(n / 10);
      assert CharDigit(d[|d| - 1]).value == n % 10;
    } else {
      assert d == [DigitChar(n)] && d[..0] == [];
      assert RadixValue(d[..0], 10) == 0;
      assert CharDigit(d[0]).value == n;
      assert RadixValue(d, 10) == n;
    }
  }

  lemma RadixPrefixAll(s: string, radix: nat)
    requires AllRadixDigits(s, radix)
    ensures RadixPrefix(s, radix) == |s|
  {
    if |s| > 0 {
      RadixPrefixAll(s[1..], radix);
    }
  }

  lemma TrimStartKeeps(s: string)
    requires |s| > 0 && !IsSpace(s[0])
    ensures TrimStart(s) == s
  {
  }

  /** `parseInt` reads a whole run of decimal digits, with or without a minus sign. */
  lemma ParseDigits(d: string)
    requires |d| >= 1
    requires forall i :: 0 <= i < |d| ==> IsDigit(d[i])
    ensures ParseInt(d) == Some(DigitsValue(d) as int)
    ensures ParseInt("-" + d) == Some(-(DigitsValue(d) as int))
  {
    assert AllRadixDigits(d, 10) by {
      forall i | 0 <= i < |d| ensures IsRadixDigit(d[i], 10) { assert IsDigit(d[i]); }
    }
    DecimalParts(d);
    ParseOfParts(d, false, 10, d);
    ParseOfParts("-" + d, true, 10, d);
  }

  /** A run of decimal digits, with or without a minus sign, is read in radix 10 as a whole. */
  lemma DecimalParts(d: string)
    requires |d| >= 1
    requires forall i :: 0 <= i < |d| ==> IsDigit(d[i])
    ensures NumberParts(d) == (false, 10, d)
    ensures NumberParts("-" + d) == (true, 10, d)
  {
    PlainParts(d);
    NegParts(d);
  }

  lemma PlainParts(d: string)
    requires |d| >= 1
    requires forall i :: 0 <= i < |d| ==> IsDigit(d[i])
    ensures NumberParts(d) == (false, 10, d)
  {
    assert IsDigit(d[0]) && !IsSpace(d[0]);
    TrimStartKeeps(d);
    if |d| >= 2 {
      assert IsDigit(d[1]);
    }
  }

  lemma NegParts(d: string)
    requires |d| >= 1
    requires forall i :: 0 <= i < |d| ==> IsDigit(d[i])
    ensures NumberParts("-" + d) == (true, 10, d)
  {
    var m := "-" + d;
    assert m[0] == '-' && !IsSpace(m[0]);
    TrimStartKeeps(m);
    assert m[1..] == d;
    if |d| >= 2 {
      assert IsDigit(d[1]);
    }
  }

  /** When the text after the sign and prefix is all digits, `parseInt` reads all of it. */
  lemma ParseOfParts(s: string, neg: bool, radix: nat, z: string)
    requires NumberParts(s) == (neg, radix, z)
    requires |z| >= 1 && AllRadixDigits(z, radix)
    ensures ParseInt(s) == Some(if neg then -(RadixValue(z, radix) as int) else RadixValue(z, radix) as int)
  {
    RadixPrefixAll(z, radix);
    assert z[..|z|] == z;
  }

  /** After `0x` or `0X`, `parseInt` reads the hexadecimal digits. */
  lemma ParseHex(d: string, x: char)
    requires |d| >= 1 && AllRadixDigits(d, 16)
    requires x == 'x' || x == 'X'
    ensures ParseInt(['0', x] + d) == Some(RadixValue(d, 16) as int)
  {
    HexParts(d, x);
    ParseOfParts(['0', x] + d, false, 16, d);
  }

  /** `0x` or `0X` with nothing before it selects radix 16 for the rest. */
  lemma HexParts(d: string, x: char)
    requires x == 'x' || x == 'X'
    ensures NumberParts(['0', x] + d) == (false, 16, d)
  {
    var s := ['0', x] + d;
    assert s[0] == '0' && s[1] == x && !IsSpace(s[0]);
    TrimStartKeeps(s);
    assert s[2..] == d;
  }

  /** `parseInt("0x10")` is 16, not 0. */
  lemma ParseHexExample()
    ensures ParseInt("0x10") == Some(16)
  {
    var d := ['1', '0'];
    assert CharDigit('1') == Some(1) && CharDigit('0') == Some(0);
    assert AllRadixDigits(d, 16);
    assert d[..1] == ['1'] && ['1'][..0] == [];
    assert RadixValue(d, 16) == 16;
    assert "0x10" == ['0', 'x'] + d;
    ParseHex(d, 'x');
  }

  /** `parseInt` stops at the first character that is not a digit. */
  lemma ParseStopsAtNonDigit(d: string, rest: string)
    requires |d| >= 1 && forall i :: 0 <= i < |d| ==> IsDigit(d[i])
    requires |rest| > 0 ==> !IsDigit(rest[0]) && (d == "0" ==> rest[0] != 'x' && rest[0] != 'X')
    ensures ParseInt(d + rest) == Some(DigitsValue(d) as int)
  {
    var s := d + rest;
    assert !IsSpace(s[0]);
    TrimStartKeeps(s);
    assert NumberParts(s) == (false, 10, s) by {
      if |s| >= 2 && s[0] == '0' {
        if |d| >= 2 { assert s[1] == d[1] && IsDigit(d[1]); } else { assert s[1] == rest[0]; }
      }
    }
    assert AllRadixDigits(d, 10) by {
      forall i | 0 <= i < |d| ensures IsRadixDigit(d[i], 10) { assert IsDigit(d[i]); }
    }
    RadixPrefixAll(d, 10);
    StopsAt(d, rest, 10);
    assert s[..|d|] == d;
  }

  /** `parseInt("12x5")` is 12: an `x` ends the digits unless it follows a lone `0`. */
  lemma ParseStopsExample()
    ensures ParseInt("12x5") == Some(12)
  {
    var d := ['1', '2'];
    var rest := ['x', '5'];
    assert IsDigit(d[0]) && IsDigit(d[1]) && |d| == 2 && d != "0";
    assert rest[0] == 'x' && !IsDigit(rest[0]);
    ParseStopsAtNonDigit(d, rest);
    Twelve();
    assert d + rest == "12x5";
  }

  lemma Twelve()
    ensures DigitsValue(['1', '2']) == 12
  {
    var d := ['1', '2'];
    assert d[..1] == ['1'] && ['1'][..0] == [];
    assert CharDigit('1') == Some(1) && CharDigit('2') == Some(2);
  }

  lemma {:induction false} StopsAt(d: string, rest: string, radix: nat)
    requires AllRadixDigits(d, radix)
    requires |rest| > 0 ==> !IsRadixDigit(rest[0], radix)
    ensures RadixPrefix(d + rest, radix) == |d|
  {
    if |d| > 0 {
      assert (d + rest)[1..] == d[1..] + rest;
      StopsAt(d[1..], rest, radix);
    } else {
      assert d + rest == rest;
    }
  }

  /** `parseInt(String(n))` gives back `n`. */
  lemma ParseIntOfDecimal(n: int)
    ensures ParseInt(IntToDecimal(n)) == Some(n)
  {
    var m: nat := if n < 0 then -n else n;
    var d := NatToDecimal(m);
    ParseDigits(d);
    DecimalValue(m);
    assert IntToDecimal(n) == if n < 0 then "-" + d else d;
  }
}
